=== FILE: README.md ===
# BlitzMax debugger bridge, modelled in Dafny

This project models the debugger bridge of the BlitzMax extension for
Visual Studio Code (`src/bmxdebugger.ts`). The bridge sits between a debugging
client and a BlitzMax program compiled in debug mode:

- It reads the program's output and frames the `~>` protocol lines into
  events. The parser expects an event to open with `~>Name{` or
  `~>Name:extra{`, followed by `~>data` lines, `~>}`, and a bare `~>`.
- It handles the stop events itself and queues every other event for the
  request that waits for it.
- It answers the client's stack-trace, scopes, variables and evaluate
  requests from a stack dump (`t`) and from object dumps (`d<handle>`).
- It sends the run (`r`), step (`s`), step-in (`e`) and step-out (`l`) commands.

The whole bridge is pure functions over an immutable `Model.Session` record.
A request that waits on the program takes, as a parameter, the output the
program writes while it waits. That output passes through the event parser,
and the request's reply is whatever `getNextEvent` then takes off the queue.
Most requests return an `Outcome`: the new session, the text written to
the program's standard input, and the response body. Three are simpler:
`ScopesRequest` returns only the scopes body, `EvaluateRequest` returns an
optional evaluation, and `RestartRequest` returns only the new session.

Modules:

- `JsString`: the JavaScript string operations the bridge relies on, with
  their edge cases. `indexOf`/`lastIndexOf` return -1 when the needle is
  absent. `slice`/`substr` accept negative positions, and `substring`
  clamps and swaps its bounds. `split`, `toLowerCase` (ASCII only) and
  `replace` with a text pattern are modelled too.
- `OrderedMap`: a JavaScript `Map` keyed by strings, as an association list
  in insertion order.
- `Model`: the session record and the entities (`Event`, `Frame`, `Scope`,
  `Variable`, `Notice`).
- `EventFrames`: `onDebugOutput`, `isInternalEvent` and `getNextEvent`.
- `References`: the reference counter.
- `Variables`: `convertToVariable` and recording variables in the variable index.
- `StackDump`: the parse of the stack dump inside `onStackTraceRequest`.
- `Requests`: the client requests.

## Model

| member | source | states |
|---|---|---|
| JsString.IndexOf | src/bmxdebugger.ts:208 | `indexOf` gives the first position of the character, or -1 exactly when it is absent |
| JsString.LastIndexOf | src/bmxdebugger.ts:83-84 | `lastIndexOf` gives the last position of the character, or -1 exactly when it is absent |
| JsString.Slice | src/bmxdebugger.ts:83 | `slice` with a negative end takes the text up to that many characters before the end; reversed resolved bounds give "" |
| JsString.SliceFrom | src/bmxdebugger.ts:105 | `slice(start)` is the suffix from `start`; a start further back than the length gives the whole string |
| JsString.Substr | src/bmxdebugger.ts:208 | `substr` with a negative or zero length is "", so `substr(0, -1)` is "" |
| JsString.SubstrFrom | src/bmxdebugger.ts:84 | `substr(start)` is the suffix from `start` |
| JsString.Substring | src/bmxdebugger.ts:212 | `substring` clamps each bound into the text, then takes the two in increasing order: a negative bound acts as 0 and one past the end as the length, so the result runs from the smaller to the larger |
| JsString.SubstringSymmetric | src/bmxdebugger.ts:212 | `substring(a, b)` equals `substring(b, a)` |
| JsString.FirstWord | src/bmxdebugger.ts:208 | the text before the first space has no space and is followed by one; it is "" without a space |
| JsString.AfterFirstSpace | src/bmxdebugger.ts:213 | the text is the first word, a space, then this part; without a space it is the whole text |
| JsString.ToLower | src/bmxdebugger.ts:211-213 | lower-casing keeps the length, leaves no ASCII capital, leaves every other character as it is, and maps each capital to the letter 32 code points above it |
| JsString.ToLowerIdempotent | src/bmxdebugger.ts:240 | lower-casing twice is lower-casing once |
| JsString.Split | src/bmxdebugger.ts:301 | `split` yields at least one part; no part contains the separator; joining the parts with it gives the text back |
| JsString.SplitJoin | src/bmxdebugger.ts:301 | splitting separator-free parts joined by the separator gives exactly those parts |
| JsString.IndexOfAfterPart | src/bmxdebugger.ts:301 | in `a + sep + b`, with `a` free of the separator, the first separator is at `|a|` |
| JsString.LastIndexOfBeforeTail | src/bmxdebugger.ts:83 | in `a + sep + b`, with `b` free of the separator, the last separator is at `|a|` |
| JsString.JoinAvoids | src/bmxdebugger.ts:301 | a character that is neither the separator nor in any part is absent from the joined text |
| JsString.IndexOfText | src/bmxdebugger.ts:152 | `indexOf` of a text gives its first occurrence, or -1 exactly when it does not occur |
| JsString.ReplaceFirstSpec | src/bmxdebugger.ts:152 | `replace` with a text pattern replaces only the first occurrence; with no occurrence the text is unchanged |
| JsString.ReplaceAfter | src/bmxdebugger.ts:152 | when the pattern's first character is absent from the text before an occurrence, `replace` swaps that occurrence |
| OrderedMap.Keys | src/bmxdebugger.ts:244 | the keys are listed one per entry in iteration order; a text is a key exactly when some entry holds it |
| OrderedMap.Find | src/bmxdebugger.ts:403 | gives the position of the key's entry, or -1 exactly when the key is absent |
| OrderedMap.Get | src/bmxdebugger.ts:403 | a lookup finds nothing exactly when the key is absent; what it finds is the value of the first entry for the key |
| OrderedMap.Set | src/bmxdebugger.ts:403 | after `set` the key maps to the new value and other keys keep theirs; a known key keeps its place and a new key goes last; keys stay distinct |
| OrderedMap.FindUpdate | src/bmxdebugger.ts:403 | overwriting an entry's value in place moves no key |
| OrderedMap.FindAppend | src/bmxdebugger.ts:448 | a new key appended at the end is found there, and other keys are found where they were |
| OrderedMap.FirstWhere | src/bmxdebugger.ts:244-249 | gives the first entry in iteration order whose value satisfies the test, or -1 exactly when none does |
| References.NextReferenceId | src/bmxdebugger.ts:168-171 | the id handed out is above the counter before the call |
| References.Allocations | src/bmxdebugger.ts:168-171 | ids from successive allocations are above the starting counter and strictly increasing |
| References.AllocationsCountUp | src/bmxdebugger.ts:168-171 | the k-th allocation from counter c hands out c + k + 1 |
| References.AllocationsAfterReset | src/bmxdebugger.ts:173-175 | after a reset the ids are 1, 2, 3, ..., never the 0 that means "no reference" |
| EventFrames.SplitHeader | src/bmxdebugger.ts:81-92 | the header is `~>`, the name, the separator, then an extra that holds no further separator |
| EventFrames.StartEvent | src/bmxdebugger.ts:79-95 | a marker line opens an event: split at the last `:`, failing that at the last `@`, otherwise the name is the whole remainder with no extra |
| EventFrames.DropBrace | src/bmxdebugger.ts:112 | `slice(0, -1)` on text ending in `{` is the text without the brace |
| EventFrames.TrimEvent | src/bmxdebugger.ts:110-118 | closing removes one trailing `{` from the name and from a non-empty extra; an extra emptied by this becomes absent; an already-empty extra stays; data is untouched |
| EventFrames.IsInternalEvent | src/bmxdebugger.ts:139-160 | the stop events are those named `DebugStop`, `Debug` or `Unhandled Exception`; `EventFrames.CloseEvent` states what handling them does |
| EventFrames.ExceptionMessage | src/bmxdebugger.ts:150-153 | the modal text starts with the event name and `: ` |
| EventFrames.ExceptionMessagePlain | src/bmxdebugger.ts:150-153 | a one-line message without a period is shown unchanged |
| EventFrames.ExceptionMessageBreak | src/bmxdebugger.ts:150-153 | a one-line message gets one line break, right after its first period |
| EventFrames.ExceptionMessageNoDouble | src/bmxdebugger.ts:150-153 | a message whose first period already ends a line is shown unchanged: the doubled break is undone |
| EventFrames.StopNotices | src/bmxdebugger.ts:145-154 | a stop event gives one or two notices: the stopped notice first, then the modal error with the exception's message, which is added only for an unhandled exception with a message |
| EventFrames.CloseEvent | src/bmxdebugger.ts:108-131 | closing leaves no event open; the queue stays the same exactly for a stop event, which empties the dump cache, sets the debugging flag and adds its notices; any other event is appended to the queue, cache and notices untouched |
| EventFrames.OnLine | src/bmxdebugger.ts:69-136 | skips empty lines; a non-protocol line becomes stderr output only; with no named event, a marker line longer than 2 opens one; otherwise lines over 3 characters add data, 3-character lines are ignored, and a bare marker closes the event; a stop event empties the dump cache and is not queued, any other event is queued |
| EventFrames.OnDebugOutput | src/bmxdebugger.ts:68-137 | processing output never takes events off the queue or notices off the client's list |
| EventFrames.OnDebugChunk | src/bmxdebugger.ts:68-70 | a chunk of output never takes events off the queue or notices off the list, and empty output changes nothing |
| EventFrames.ChunkOfLines | src/bmxdebugger.ts:68-71 | output made of line-break-free lines joined by line breaks is processed as exactly those lines, in order |
| EventFrames.GetNextEvent | src/bmxdebugger.ts:162-166 | nothing is returned exactly when the queue is empty; otherwise the last queued event is returned, the queue loses it, and nothing else changes |
| EventFrames.PushPop | src/bmxdebugger.ts:162-166 | an event just queued is the next one taken, and the queue is left as before |
| EventFrames.OutputTouches | src/bmxdebugger.ts:68-160 | output changes only the open event, the queue, the dump cache, the debugging flag and the notices |
| EventFrames.OutputInPieces | src/bmxdebugger.ts:68-71 | processing two lists of lines one after the other is processing their concatenation |
| EventFrames.LineSplitAcrossChunks | src/bmxdebugger.ts:68-71 | each chunk is split into lines on its own, so a marker line cut across two chunks is read as two lines: the tail becomes stderr output, which the whole line does not |
| EventFrames.OutputsAppend | src/bmxdebugger.ts:134 | the stderr texts of two notice lists, appended, are those of the appended lists |
| EventFrames.PlainLinesForwarded | src/bmxdebugger.ts:69-135 | exactly the non-empty non-protocol lines reach the client as stderr output, once each and in order |
| EventFrames.LineOutputs | src/bmxdebugger.ts:132-135 | one line adds its own text to the stderr output when it is a plain line, and nothing otherwise |
| EventFrames.DataLinesAppend | src/bmxdebugger.ts:102-106 | data lines sent to an open event are appended to its data in order, and nothing else changes |
| EventFrames.HeaderOpens | src/bmxdebugger.ts:79-118 | the header line the program writes for an event opens a named event, which the close-time cleanup turns back into the event's name and extra |
| EventFrames.HeaderOpensPlain | src/bmxdebugger.ts:93-95 | a header without extra opens an event named the name plus `{` |
| EventFrames.HeaderOpensExtra | src/bmxdebugger.ts:81-86 | a header with an extra opens that name with the extra plus `{` |
| EventFrames.SplitHeaderUnique | src/bmxdebugger.ts:81-86 | a split at the last separator is determined by the line |
| EventFrames.FrameRoundTrip | src/bmxdebugger.ts:68-160 | an event framed by the program and fed to an idle parser closes as exactly that event: a stop event empties the cache and notifies the client, any other event is queued, and nothing else changes |
| EventFrames.OpenedFrame | src/bmxdebugger.ts:75-106 | after the header and data lines the event is open with all its data, and nothing else has changed |
| EventFrames.ClosingLines | src/bmxdebugger.ts:102-131 | the `~>}` line is ignored and the bare marker then closes the event |
| EventFrames.ReplyDelivered | src/bmxdebugger.ts:120-166 | a framed non-stop reply is exactly what `getNextEvent` hands the waiting request, with the queue left as before |
| Variables.SplitAssignment | src/bmxdebugger.ts:199-205 | with an `=`, name + "=" + value is the line and the value holds no `=`; without one the name is the line and the value is "" |
| Variables.DefineType | src/bmxdebugger.ts:208 | the type tag is the name's first word, followed in the name by a space; without a space it is "" |
| Variables.FuzzyNames | src/bmxdebugger.ts:210-214 | there are exactly three keys: the lower-cased name first and the lower-cased text after the first space last; the middle key is the lower-cased text between the first space and the last `:`, taken in either order, and up to the first space when there is no `:` |
| Variables.MiddleName | src/bmxdebugger.ts:212 | the middle key before lower-casing: the text strictly between the first space and the last colon when the space comes first; otherwise, as `substring` swaps its bounds, the text from the last colon through the first space, or the text through the first space when there is no colon |
| Variables.ConvertToVariable | src/bmxdebugger.ts:195-224 | the reference is non-zero exactly for a `$` value not ending in `}`; such a variable gets a reference above the counter, which becomes the counter, and it joins the end of the pending list; otherwise counter and list are unchanged |
| Variables.ConvertShape | src/bmxdebugger.ts:199-205 | a converted variable gives its line back, whatever the counter |
| Variables.Handles | src/bmxdebugger.ts:217-221 | the variables holding a reference: every one has a non-zero reference, and a variable is among them exactly when it is in the list and its reference is not 0 |
| Variables.HandlesAppend | src/bmxdebugger.ts:217-221 | filtering keeps order and repeats: the handles of a concatenation are the handles of each part, one after the other |
| Variables.HandlesOne | src/bmxdebugger.ts:217-221 | a single variable is kept exactly when its reference is not 0; with HandlesAppend this fixes the handles of every list, order and repeats included |
| Variables.ConvertAll | src/bmxdebugger.ts:400-404 | converting lines gives one variable per line |
| Variables.ConvertStep | src/bmxdebugger.ts:400-404 | converting a list is converting its first line, which appends at most that variable to the pending list, then the rest |
| Variables.ConvertAllRestores | src/bmxdebugger.ts:398-404 | the i-th variable is the i-th line split at its last `=` |
| Variables.ConvertAllFresh | src/bmxdebugger.ts:217-221 | every reference handed out is above the counter before and at most the counter after |
| Variables.ConvertAllPending | src/bmxdebugger.ts:217-221 | the handles met are appended to the pending list, in order |
| Variables.ConvertAllIncreasing | src/bmxdebugger.ts:217-221 | the handles met have strictly increasing references |
| Variables.IncreasingJoin | src/bmxdebugger.ts:217-221 | two increasing lists on either side of a bound join into an increasing list |
| Variables.ConvertAllKeepsOrder | src/bmxdebugger.ts:217-221 | converting keeps the pending list in allocation order and within the counter |
| Variables.Latest | src/bmxdebugger.ts:403 | the variable of a given name that no later variable of that name follows, or nothing exactly when no variable has that name |
| Variables.IndexGet | src/bmxdebugger.ts:400-404 | after recording, a name resolves to the last variable recorded under it; other names keep their old entry |
| Variables.IndexKeys | src/bmxdebugger.ts:400-404 | recording never stores a name twice |
| Variables.Index | src/bmxdebugger.ts:400-404 | recording keeps the old keys as a prefix, in place, and adds at most one entry per variable |
| StackDump.HeaderPath | src/bmxdebugger.ts:299-300 | the source path is the text between `@` and the last `<`, and "" without a `<` |
| StackDump.HeaderPosition | src/bmxdebugger.ts:299-301 | the position parts are the text between the last `<` and the final `>`, split at commas |
| StackDump.HeaderRoundTrip | src/bmxdebugger.ts:298-301 | a header written for a path and position parts parses back to them, even when the path holds `<` |
| StackDump.FrameName | src/bmxdebugger.ts:337-342 | the frame name is the label after its first space, or the whole label without a space |
| StackDump.DumpLine | src/bmxdebugger.ts:293-351 | one dump line advances the counter by at most one, puts at most one frame on the front of the list, and adds a scope exactly when it adds a frame, with the new counter as reference |
| StackDump.ParseDump | src/bmxdebugger.ts:293-351 | parsing never lowers the counter, only appends scopes, and adds exactly as many frames as scopes |
| StackDump.ParseDumpKeepsFrames | src/bmxdebugger.ts:343 | parsing only puts frames in front of those already kept |
| StackDump.ParseDumpCache | src/bmxdebugger.ts:311-318 | parsing only appends lines to the cache: every cached reference stays, with its old lines as a prefix |
| StackDump.ParseDumpAppend | src/bmxdebugger.ts:293-351 | parsing a dump in two pieces is parsing the whole |
| StackDump.StartGood | src/bmxdebugger.ts:266-270 | the parse starts from a reset counter, which satisfies the parser invariant |
| StackDump.PushKeepsOrder | src/bmxdebugger.ts:343 | unshifting a frame with the newest id keeps the ids decreasing |
| StackDump.PushKeepsScopes | src/bmxdebugger.ts:329-335 | a scope whose reference is its frame's id + 1 keeps scopes and frames matched |
| StackDump.HeaderGood | src/bmxdebugger.ts:298-310 | a header line keeps the parser invariant |
| StackDump.LabelGood | src/bmxdebugger.ts:323-348 | a scope label keeps the parser invariant |
| StackDump.DumpLineGood | src/bmxdebugger.ts:293-351 | every dump line keeps the parser invariant |
| StackDump.ParseDumpGood | src/bmxdebugger.ts:293-351 | every dump keeps the parser invariant |
| StackDump.CacheRun | src/bmxdebugger.ts:311-320 | after a kept frame's label, the lines up to the next header are appended to the cache under its scope's reference, and nothing else changes |
| StackDump.IdleRun | src/bmxdebugger.ts:297-320 | with no scope open, lines up to the next header change nothing |
| StackDump.LocalFrameDropped | src/bmxdebugger.ts:324-327 | a header followed by `Local <local>` keeps no frame, uses up one id, and caches none of the lines after it |
| StackDump.FrameBlock | src/bmxdebugger.ts:298-349 | a header, a label and its lines add one frame named after the label, with the next id, a scope with the id after it, and the lines cached under that scope |
| StackDump.Finish | src/bmxdebugger.ts:353-368 | with a kept frame, an app frame named `<` + the first-parsed frame's name + `>` is put at the head with the newest id and the source and position of the last-parsed frame, and `totalFrames` is the number of real frames; with none, no frames and a count of 0 |
| StackDump.StackTrace | src/bmxdebugger.ts:262-368 | `totalFrames` is the number of frames listed less the app frame, and the dump cache only grows |
| StackDump.StackTraceIds | src/bmxdebugger.ts:293-368 | in every parsed trace, frame ids decrease, only the head is the app frame, scope references increase and equal their frame's id + 1, scopes pair with frames in reverse order, no frame id equals a scope reference, and no id or reference is above the counter |
| StackDump.FinishIds | src/bmxdebugger.ts:353-368 | adding the app frame keeps the trace well numbered |
| StackDump.FinishFramesDecrease | src/bmxdebugger.ts:353-368 | the app frame's id is above every kept frame's id |
| StackDump.FinishScopesApart | src/bmxdebugger.ts:353-368 | the app frame's id is no scope's reference |
| StackDump.SpreadIds | src/bmxdebugger.ts:306-332 | in a parsed dump, frame ids and scope references are all different, and scope references increase |
| StackDump.OneFrameTrace | src/bmxdebugger.ts:293-368 | a one-frame dump gives the app frame with id 3 and the frame with id 1, one scope with reference 2, and `totalFrames` 1 |
| StackDump.OneFrameParse | src/bmxdebugger.ts:293-351 | a one-frame dump keeps that frame with id 1 and its scope with reference 2, with the body cached under 2 |
| StackDump.FinishOne | src/bmxdebugger.ts:353-368 | finishing a parse that kept one frame with the counter at 2 adds the app frame with id 3 and reports one frame |
| StackDump.LocalOnlyTrace | src/bmxdebugger.ts:324-355 | a dump whose only frame is labelled `Local <local>` lists no frames and caches nothing |
| Requests.AwaitReply | src/bmxdebugger.ts:434-437 | waiting for a reply changes none of the request's own state: pending list, variable index, scopes, frames and counter |
| Requests.StackTraceRequest | src/bmxdebugger.ts:262-372 | sends `t`, empties the pending list and keeps the variable index; with a reply the frames are well numbered and `totalFrames` is one less than the frames listed; without one there are no frames or scopes and the counter is reset; either way no frame id or scope reference is above the counter |
| Requests.ScopeAt | src/bmxdebugger.ts:375 | finds a scope whose frame has the id, or nothing exactly when no scope's frame has it |
| Requests.IsAppStack | src/bmxdebugger.ts:186-193 | the scan finds the id exactly when some frame with a non-zero id has it and is the app frame |
| Requests.UnshiftedMembers | src/bmxdebugger.ts:378-382 | the listed scopes are exactly those whose frame is not the app frame |
| Requests.UnshiftedReverses | src/bmxdebugger.ts:378-382 | unshifting the scopes one by one lists them in reverse order |
| Requests.AppFrameScopes | src/bmxdebugger.ts:377-382 | after a stack trace, asking for the app frame lists one scope per real frame, in the frames' order |
| Requests.KeptFrameScope | src/bmxdebugger.ts:375-385 | asking for a real frame lists its own scope when empty scopes are shown or the scope has cached lines, and gives no body otherwise |
| Requests.UnknownFrameScope | src/bmxdebugger.ts:375-385 | asking for a frame with no scope lists `[undefined]` when empty scopes are shown, and otherwise throws |
| Requests.ScopeAtUnique | src/bmxdebugger.ts:374-375 | with scope references increasing and each its frame's id + 1, looking up a scope's frame id finds that scope |
| Requests.PendingIndex | src/bmxdebugger.ts:413-422 | gives the first pending handle with the reference, or -1 exactly when there is none |
| Requests.IsRootScopeReference | src/bmxdebugger.ts:177-184 | the scan finds the reference exactly when some scope with a non-zero reference has it |
| Requests.DumpCommand | src/bmxdebugger.ts:431 | the dump command is `d`, the handle without its leading `$`, and a line break |
| Requests.RemoveAt | src/bmxdebugger.ts:452 | `splice(i, 1)` at an index inside the list removes exactly the i-th element and keeps the others in order |
| Requests.CachedVariables | src/bmxdebugger.ts:398-404 | a cached reference gives one variable per cached line, in order, and sends nothing; the handles among them join the pending list; each name then resolves to its last variable |
| Requests.RootScopeSentinel | src/bmxdebugger.ts:406-411 | an uncached root scope reference gives only the `no variables` entry and changes nothing |
| Requests.UnknownReference | src/bmxdebugger.ts:413-428 | an unknown reference gives an empty list, sends nothing and changes nothing |
| Requests.Expansion | src/bmxdebugger.ts:413-452 | a pending handle is dumped with `d` and the handle without its `$`; a reply gives one variable per line, and the pending list loses exactly the expanded handle and keeps the handles found in the reply |
| Requests.RemoveFront | src/bmxdebugger.ts:452 | removing an element before the appended handles leaves them in place |
| Requests.ExpansionIsOneShot | src/bmxdebugger.ts:444-452 | after a successful expansion the reference is no longer pending, and the pending list stays in allocation order |
| Requests.FreshReferences | src/bmxdebugger.ts:396-457 | with no id or reference above the counter, as after a stack trace, a variables request keeps the frames and scopes and hands out only references that no frame and no scope holds, and the bound still holds afterwards |
| Requests.RemoveKeepsOrder | src/bmxdebugger.ts:452 | removing a pending handle keeps the list in allocation order |
| Requests.CachedReplay | src/bmxdebugger.ts:398-404 | asking twice for a cached reference gives the same names and values, but new references for the handles |
| Requests.EvaluateRequest | src/bmxdebugger.ts:240-258 | there is no result exactly when no indexed variable has the lower-cased expression among its keys |
| Requests.EvaluateFirstMatch | src/bmxdebugger.ts:244-256 | the result is the first matching variable in insertion order, reported as its value, type tag and reference |
| Requests.EvaluateIgnoresCase | src/bmxdebugger.ts:240 | the expression's letter case does not matter |
| Requests.EvaluateFindsName | src/bmxdebugger.ts:240-249 | an indexed variable's own name always evaluates to something |
| Requests.RestartRequest | src/bmxdebugger.ts:228-230 | restart empties the variable index |
| Requests.Resume | src/bmxdebugger.ts:462-464 | resuming clears the debugging flag, tells the client it continued, and sends the command |
| Requests.ResumeForgets | src/bmxdebugger.ts:460-466 | after continue or restart nothing evaluates; continue sends `r` |
| Requests.StepsRemember | src/bmxdebugger.ts:468-487 | next, step-in and step-out keep the variable index, so evaluation answers as before; they send `s`, `e` and `l` |

## Left out

- Input and output are parameters, not actions. Writing to the program's
  standard input is the `sent` list of an `Outcome`. The output the program
  writes while a request waits is the `arrived` parameter, and it is taken
  as fully processed before `getNextEvent` runs. The `awaitNotify`
  wait/notify pair is therefore not modelled. In the source a waiting
  request resumes only on the `notify()` that follows a push onto the
  queue (src/bmxdebugger.ts:122-123); until then it waits at
  src/bmxdebugger.ts:275 or :435. The model resumes after any `arrived`.
  A run of the model where `arrived` queues no event has no counterpart
  in the source. In such a run the request gets no body or an empty list,
  or takes an event that was already queued.
- Requests.EvaluateRequest: does not wait. In the source the stack trace
  sets `processingVariables` (src/bmxdebugger.ts:264) and never clears it;
  only the variables request does (src/bmxdebugger.ts:409, :426, :439,
  :455). So an evaluate request that comes after a stack trace and before
  any variables request waits in `waitFor` (src/bmxdebugger.ts:236) until a
  variables request has finished. Requests here run one at a time and
  evaluation answers at once; the flag and the wait are not modelled.
- `session.sendEvent` and the modal error box are recorded as `Notice`
  values in the session instead of being sent.
- `Number` on the line and column and `path.basename` on the source path
  are not interpreted. A frame keeps the raw comma-separated position parts
  and the source path.
- The `presentationHint: 'subtle'` of the application frame is represented
  by its `isAppStack` flag alone.
- A variable's `defineType` and `fuzzyNames` are not stored. They are
  functions of its name (`Variables.DefineType`, `Variables.FuzzyNames`),
  which is how `convertToVariable` computes them.
- Model.NewSession: the session starts with every collection empty and
  the counter at 0. In the source the dump cache stays `undefined` until
  the first stop event assigns it (src/bmxdebugger.ts:144). The counter,
  the frames, the scopes and the pending handles (`stacks`, `scopes`,
  `referenceVariables`) stay `undefined` until the first stack trace
  (src/bmxdebugger.ts:266-270), and the variable index until a stack trace
  or a restart (src/bmxdebugger.ts:229, :267). Where the source reads one
  of them in that state it throws a `TypeError`, for instance a stack
  trace whose dump has variables before any stop event, at
  src/bmxdebugger.ts:314. Those throws are not modelled. Evaluation checks
  for a missing index and answers with no result (src/bmxdebugger.ts:238),
  as it does here for an empty one.
- EventFrames.OnLine: line lengths (`line.length > 2`, `> 3`,
  src/bmxdebugger.ts:79, :102, :104) count characters here, while
  JavaScript counts UTF-16 code units. A line holding characters outside
  the Basic Multilingual Plane can therefore be classified differently.
- The line separator is taken to be `"\n"` (`os.EOL` on POSIX). Output is
  given as its lines; `EventFrames.OnDebugChunk` does the split
  (`EventFrames.ChunkOfLines`).
- `toLowerCase` is modelled for ASCII letters only.
- `src/common.ts` (`existsSync`) is file-system access and is not part of this model.
- Requests.EvaluateRequest: the first-match contract is stated by
  `Requests.EvaluateFirstMatch` instead of on the function itself.
- JsString.ReplaceFirst: its contract is stated by
  `JsString.ReplaceFirstSpec` instead of on the function itself.
- Requests.ScopesRequest, Requests.VariablesRequest, Requests.ContinueRequest,
  Requests.NextRequest, Requests.StepInRequest and Requests.StepOutRequest:
  their behaviour is stated by the lemmas about them listed above.

Behaviour of the code worth noting:

- Each chunk of output is split into lines on its own, and no partial line
  is kept for the next chunk. A protocol line that arrives in two chunks
  is therefore read as two lines. The tail is shown as program output, and
  the event is opened under the head only (`LineSplitAcrossChunks`).
- Only `continue` and `restart` empty the variable index. The step
  requests keep it (`StepsRemember`).
- `totalFrames` counts the real frames only. The expression
  `totalFrames ? totalFrames++ : 1` leaves the count unchanged, so the
  application frame is not included (`StackDump.Finish`).
- Repeating a variables request for a cached reference is not idempotent.
  Handle variables get fresh references each time, and the pending list
  grows (`CachedReplay`).

=== FILE: event_frames.dfy ===
/**
 The event framing state machine of `onDebugOutput` (src/bmxdebugger.ts).
 The debuggee writes protocol lines prefixed with `~>`: the first such line
 names an event, later ones carry its data, and a bare `~>` closes it.
 Closed events are either handled internally (the stop events) or queued
 for the request that is waiting on the debuggee; the queue is popped from
 its tail. Every other line is the debuggee's own output.
 */
module EventFrames {
  import opened Wrappers
  import opened JsString
  import opened Model

  /** The prefix of every line that belongs to the debugger protocol. */
  const Marker: string := "~>"

  /** The debuggee's line separator (`os.EOL` on POSIX systems). */
  const EOL: char := '\n'

  /**
   Splits a marker line at its last `sep`: the text between the two-character
   marker and that separator (a slice whose end is counted back from the
   line's length), and the text after it.
   */
  function SplitHeader(line: string, sep: char): (r: (string, string))
    requires Marker <= line && sep in line && sep != '~' && sep != '>'
    ensures line == Marker + r.0 + [sep] + r.1
    ensures sep !in r.1
  {
    var k := LastIndexOf(line, sep);
    assert line[..2] == Marker;
    assert 2 <= k by {
      assert line[0] == '~' && line[1] == '>';
    }
    var name := Slice(line, 2, k - |line|);
    var extra := SubstrFrom(line, k + 1);
    assert name == line[2..k];
    assert extra == line[k + 1..];
    assert line == line[..2] + line[2..k] + [sep] + line[k + 1..];
    (name, extra)
  }

  /** Opens an event from a marker line: split on the last `:`, failing that on the last `@`, otherwise no extra. */
  function StartEvent(line: string): (e: Event)
    requires Marker <= line
    ensures e.data == []
    ensures e.extra.Some? <==> ':' in line || '@' in line
    ensures ':' in line ==> line == Marker + e.name + ":" + e.extra.value && ':' !in e.extra.value
    ensures ':' !in line && '@' in line ==> line == Marker + e.name + "@" + e.extra.value && '@' !in e.extra.value
    ensures ':' !in line && '@' !in line ==> line == Marker + e.name
  {
    if ':' in line then
      var (name, extra) := SplitHeader(line, ':');
      Event(name, Some(extra), [])
    else if '@' in line then
      var (name, extra) := SplitHeader(line, '@');
      Event(name, Some(extra), [])
    else
      assert line == line[..2] + line[2..];
      Event(SliceFrom(line, 2), None, [])
  }

  /** `s.slice(0, -1)` on text ending in `{`: the text without that brace. */
  function DropBrace(s: string): (r: string)
    requires EndsWith(s, '{')
    ensures s == r + "{"
  {
    assert s == s[..|s| - 1] + [s[|s| - 1]];
    Slice(s, 0, -1)
  }

  /**
   The cleanup when an event closes: one trailing `{` comes off the name,
   and off the extra when the extra is non-empty; an extra that this leaves
   empty becomes absent. An extra that was already empty stays as it is.
   */
  function TrimEvent(e: Event): (r: Event)
    ensures r.data == e.data
    ensures e.name == (if EndsWith(e.name, '{') then r.name + "{" else r.name)
    ensures e.extra.None? || e.extra == Some("") ==> r.extra == e.extra
    ensures e.extra.Some? && e.extra.value != "" ==>
      && (r.extra.None? <==> e.extra.value == "{")
      && (r.extra.Some? ==> e.extra.value == (if EndsWith(e.extra.value, '{') then r.extra.value + "{" else r.extra.value))
  {
    var name := if EndsWith(e.name, '{') then DropBrace(e.name) else e.name;
    var extra :=
      match e.extra
      case Some(x) =>
        if x != "" then
          var x' := if EndsWith(x, '{') then DropBrace(x) else x;
          if |x'| <= 0 then None else Some(x')
        else e.extra
      case None => None;
    Event(name, extra, e.data)
  }

  /** The stop events, which the bridge handles itself instead of queueing. */
  predicate IsInternalEvent(name: string)
  {
    name == "DebugStop" || name == "Debug" || name == "Unhandled Exception"
  }

  /** The modal text for an unhandled exception: the first `.` gets a line break after it, and a doubled break is then undone once. */
  function ExceptionMessage(name: string, extra: string): (r: string)
    ensures name + ": " <= r
  {
    name + ": " + ReplaceFirst(ReplaceFirst(extra, ".", ".\n"), "\n\n", "\n")
  }

  /** A one-line message without a period is shown as it is. */
  lemma ExceptionMessagePlain(name: string, extra: string)
    requires '.' !in extra && '\n' !in extra
    ensures ExceptionMessage(name, extra) == name + ": " + extra
  {
    AbsentNeverOccurs(extra, ".");
    AbsentNeverOccurs(extra, "\n\n");
  }

  /** A one-line message gets a line break after its first period, and only there. */
  lemma ExceptionMessageBreak(name: string, a: string, b: string)
    requires '.' !in a && '\n' !in a && '\n' !in b
    ensures ExceptionMessage(name, a + "." + b) == name + ": " + (a + ".\n" + b)
  {
    var s1 := ReplaceFirst(a + "." + b, ".", ".\n");
    assert s1 == (a + ".") + "\n" + b by {
      ReplaceAfter(a, ".", b, ".\n");
    }
    SingleBreak(a + ".", b);
  }

  /** A text whose only line break sits between two break-free parts has no doubled break to undo. */
  lemma SingleBreak(a: string, b: string)
    requires '\n' !in a && '\n' !in b
    ensures ReplaceFirst(a + "\n" + b, "\n\n", "\n") == a + "\n" + b
  {
    var t := a + "\n" + b;
    assert forall i :: 0 <= i < |t| && i != |a| ==> t[i] != '\n' by {
      forall i | 0 <= i < |t| && i != |a|
        ensures t[i] != '\n'
      {
        if i < |a| {
          assert t[i] == a[i];
        } else {
          assert t[i] == b[i - |a| - 1];
        }
      }
    }
    forall i
      ensures !OccursAt(t, "\n\n", i)
    {
      assert 0 <= i && i + 2 <= |t| ==> t[i..i + 2][0] == t[i] && t[i..i + 2][1] == t[i + 1];
    }
  }

  /** A message whose first period already ends its line keeps a single line break there. */
  lemma ExceptionMessageNoDouble(name: string, a: string, c: string)
    requires '.' !in a && '\n' !in a
    ensures ExceptionMessage(name, a + ".\n" + c) == name + ": " + (a + ".\n" + c)
  {
    PeriodBeforeBreak(a, c);
    DoubleBreakUndone(a, c);
  }

  /** The first replacement doubles a line break that already follows the first period. */
  lemma PeriodBeforeBreak(a: string, c: string)
    requires '.' !in a
    ensures ReplaceFirst(a + ".\n" + c, ".", ".\n") == a + ".\n\n" + c
  {
    assert a + ".\n" + c == a + "." + ("\n" + c);
    ReplaceAfter(a, ".", "\n" + c, ".\n");
    assert a + ".\n" + ("\n" + c) == a + ".\n\n" + c;
  }

  /** The second replacement undoes the doubled line break after the first period. */
  lemma DoubleBreakUndone(a: string, c: string)
    requires '\n' !in a
    ensures ReplaceFirst(a + ".\n\n" + c, "\n\n", "\n") == a + ".\n" + c
  {
    assert a + ".\n\n" + c == (a + ".") + "\n\n" + c;
    ReplaceAfter(a + ".", "\n\n", c, "\n");
    assert (a + ".") + "\n" + c == a + ".\n" + c;
  }

  /** What a stop event tells the client: stopped, plus the modal for an unhandled exception with a message. */
  function StopNotices(e: Event): (ns: seq<Notice>)
    ensures 1 <= |ns| <= 2 && ns[0] == Stopped(e.name)
    ensures |ns| == 2 <==> e.name == "Unhandled Exception" && e.extra.Some? && e.extra.value != ""
    ensures |ns| == 2 ==> e.extra.Some? && ns[1] == ErrorModal(ExceptionMessage(e.name, e.extra.value))
  {
    [Stopped(e.name)] +
      if e.name == "Unhandled Exception" && e.extra.Some? && e.extra.value != "" then
        [ErrorModal(ExceptionMessage(e.name, e.extra.value))]
      else []
  }

  /** Closes the open event: trim it, handle it internally or queue it, and reset the accumulator. */
  function CloseEvent(s: Session): (r: Session)
    ensures r.current == NoEvent
    ensures IsInternalEvent(TrimEvent(s.current).name) <==> r.queue == s.queue
    ensures IsInternalEvent(TrimEvent(s.current).name) ==>
      r.cache == map[] && r.isDebugging && r.notices == s.notices + StopNotices(TrimEvent(s.current))
    ensures !IsInternalEvent(TrimEvent(s.current).name) ==>
      r.queue == s.queue + [TrimEvent(s.current)] && r.cache == s.cache && r.notices == s.notices
  {
    var e := TrimEvent(s.current);
    if IsInternalEvent(e.name) then
      s.(current := NoEvent, cache := map[], isDebugging := true, notices := s.notices + StopNotices(e))
    else
      s.(current := NoEvent, queue := s.queue + [e])
  }

  /** One line of debuggee output. */
  function OnLine(s: Session, line: string): (r: Session)
    // empty lines are skipped
    ensures |line| == 0 ==> r == s
    // a line outside the protocol only becomes stderr output
    ensures |line| > 0 && !(Marker <= line) ==> r == s.(notices := s.notices + [Output(line)])
    // with no named event open, a marker line with text opens one and a bare marker does nothing
    ensures Marker <= line && s.current.name == "" ==>
      r == (if |line| > 2 then s.(current := StartEvent(line)) else s)
    // with a named event open, longer marker lines add data and three-character ones are ignored
    ensures Marker <= line && s.current.name != "" && |line| > 3 ==>
      r == s.(current := s.current.(data := s.current.data + [line[2..]]))
    ensures Marker <= line && s.current.name != "" && |line| == 3 ==> r == s
    // a bare marker closes the named event
    ensures line == Marker && s.current.name != "" ==>
      var e := TrimEvent(s.current);
      && r.current == NoEvent
      && (IsInternalEvent(e.name) ==>
            r == s.(current := NoEvent, cache := map[], isDebugging := true, notices := s.notices + StopNotices(e)))
      && (!IsInternalEvent(e.name) ==> r == s.(current := NoEvent, queue := s.queue + [e]))
  {
    if |line| <= 0 then s
    else if Marker <= line then
      if s.current.name == "" then
        if |line| > 2 then s.(current := StartEvent(line)) else s
      else if |line| > 2 then
        if |line| > 3 then s.(current := s.current.(data := s.current.data + [SliceFrom(line, 2)])) else s
      else
        assert line == Marker;
        CloseEvent(s)
    else
      s.(notices := s.notices + [Output(line)])
  }

  /**
   `onDebugOutput` over the lines of one chunk, in order. Nothing is ever
   taken off the queue or the notices.
   */
  function OnDebugOutput(s: Session, lines: seq<string>): (r: Session)
    ensures s.queue <= r.queue
    ensures s.notices <= r.notices
    decreases |lines|
  {
    if |lines| == 0 then s
    else OnDebugOutput(OnLine(s, lines[0]), lines[1..])
  }

  /** `onDebugOutput(output)`: the chunk split into lines at the line separator. */
  function OnDebugChunk(s: Session, output: string): (r: Session)
    ensures s.queue <= r.queue
    ensures s.notices <= r.notices
    ensures output == "" ==> r == s
  {
    var lines := Split(output, EOL);
    assert output == "" ==> lines == [""] && OnDebugOutput(s, lines) == OnDebugOutput(OnLine(s, ""), []);
    OnDebugOutput(s, lines)
  }

  /** Lines written with a line break between each pair arrive as those same lines. */
  lemma ChunkOfLines(s: Session, lines: seq<string>)
    requires |lines| >= 1
    requires forall i :: 0 <= i < |lines| ==> EOL !in lines[i]
    ensures OnDebugChunk(s, Join(lines, EOL)) == OnDebugOutput(s, lines)
  {
    SplitJoin(lines, EOL);
  }

  /** `getNextEvent`: the most recently queued event, taken off the tail of the queue. */
  function GetNextEvent(s: Session): (r: (Session, Option<Event>))
    ensures r.1.None? <==> |s.queue| == 0
    ensures r.1.None? ==> r.0 == s
    ensures r.1.Some? ==> r.0 == s.(queue := r.0.queue) && r.0.queue + [r.1.value] == s.queue
  {
    if |s.queue| > 0 then
      (s.(queue := s.queue[..|s.queue| - 1]), Some(s.queue[|s.queue| - 1]))
    else (s, None)
  }

  /** The queue is last-in first-out: an event just queued is the next one taken, and the queue is as before. */
  lemma PushPop(s: Session, e: Event)
    ensures GetNextEvent(s.(queue := s.queue + [e])) == (s, Some(e))
  {
    assert (s.queue + [e])[..|s.queue|] == s.queue;
  }

  /** Debuggee output touches only the event parser's state, the queue, the dump cache, the debugging flag and the notices. */
  lemma {:induction false} OutputTouches(s: Session, lines: seq<string>)
    ensures var r := OnDebugOutput(s, lines);
      r == s.(current := r.current, queue := r.queue, cache := r.cache, isDebugging := r.isDebugging, notices := r.notices)
    decreases |lines|
  {
    if |lines| > 0 {
      OutputTouches(OnLine(s, lines[0]), lines[1..]);
    }
  }

  /** Processing two lists of lines one after the other is processing their concatenation. */
  lemma {:induction false} OutputInPieces(s: Session, a: seq<string>, b: seq<string>)
    ensures OnDebugOutput(s, a + b) == OnDebugOutput(OnDebugOutput(s, a), b)
    decreases |a|
  {
    if |a| > 0 {
      assert (a + b)[0] == a[0];
      assert (a + b)[1..] == a[1..] + b;
      assert OnDebugOutput(s, a + b) == OnDebugOutput(OnLine(s, a[0]), a[1..] + b);
      assert OnDebugOutput(s, a) == OnDebugOutput(OnLine(s, a[0]), a[1..]);
      OutputInPieces(OnLine(s, a[0]), a[1..], b);
    } else {
      assert a + b == b;
    }
  }

  /**
   Each chunk is cut into lines on its own and nothing is carried over, so
   a protocol line that arrives in two chunks is read as two lines: its
   tail becomes stderr output, which the whole line would not.
   */
  lemma LineSplitAcrossChunks(s: Session, a: string, b: string)
    requires s.current.name == ""
    requires Marker <= a && |a| > 2 && EOL !in a
    requires IsPlainLine(b) && EOL !in b
    ensures OnDebugChunk(s, a + b).notices == s.notices
    ensures OnDebugChunk(OnDebugChunk(s, a), b).notices == s.notices + [Output(b)]
  {
    ChunkOfLines(s, [a + b]);
    ChunkOfLines(s, [a]);
    var s1 := OnDebugChunk(s, a);
    assert s1 == s.(current := StartEvent(a));
    ChunkOfLines(s1, [b]);
  }

  /** The debuggee's own output, as opposed to protocol lines. */
  predicate IsPlainLine(line: string)
  {
    |line| > 0 && !(Marker <= line)
  }

  /** The non-empty lines outside the protocol, in order. */
  function PlainLines(lines: seq<string>): seq<string>
  {
    if |lines| == 0 then []
    else (if IsPlainLine(lines[0]) then [lines[0]] else []) + PlainLines(lines[1..])
  }

  /** The texts of the stderr output notices, in order. */
  function Outputs(ns: seq<Notice>): seq<string>
  {
    if |ns| == 0 then []
    else (if ns[0].Output? then [ns[0].text] else []) + Outputs(ns[1..])
  }

  lemma {:induction false} OutputsAppend(a: seq<Notice>, b: seq<Notice>)
    ensures Outputs(a + b) == Outputs(a) + Outputs(b)
    decreases |a|
  {
    if |a| > 0 {
      assert (a + b)[0] == a[0];
      assert (a + b)[1..] == a[1..] + b;
      assert Outputs(a + b) == (if a[0].Output? then [a[0].text] else []) + Outputs(a[1..] + b);
      OutputsAppend(a[1..], b);
    } else {
      assert a + b == b;
    }
  }

  /** Exactly the non-empty non-protocol lines reach the client as stderr output, each once and in order. */
  lemma {:induction false} PlainLinesForwarded(s: Session, lines: seq<string>)
    ensures Outputs(OnDebugOutput(s, lines).notices) == Outputs(s.notices) + PlainLines(lines)
    decreases |lines|
  {
    if |lines| > 0 {
      var s1 := OnLine(s, lines[0]);
      var mine := if IsPlainLine(lines[0]) then [lines[0]] else [];
      LineOutputs(s, lines[0]);
      PlainLinesForwarded(s1, lines[1..]);
      assert OnDebugOutput(s, lines) == OnDebugOutput(s1, lines[1..]);
      assert PlainLines(lines) == mine + PlainLines(lines[1..]);
      Regroup(Outputs(s.notices), mine, PlainLines(lines[1..]));
    }
  }

  /** One line adds its own text to the stderr output when it is a plain line, and nothing otherwise. */
  lemma LineOutputs(s: Session, line: string)
    ensures Outputs(OnLine(s, line).notices) == Outputs(s.notices) + (if IsPlainLine(line) then [line] else [])
  {
    var s1 := OnLine(s, line);
    var added := s1.notices[|s.notices|..];
    assert s1.notices == s.notices + added;
    OutputsAppend(s.notices, added);
    if IsPlainLine(line) {
      assert added == [Output(line)];
    } else if line == Marker && s.current.name != "" && IsInternalEvent(TrimEvent(s.current).name) {
      var ns := StopNotices(TrimEvent(s.current));
      assert added == ns;
      assert Outputs(ns) == [] by {
        assert Outputs(ns[1..]) == [];
      }
    } else {
      assert added == [];
    }
  }

  /** The protocol lines carrying the given data lines. */
  function DataLines(data: seq<string>): (lines: seq<string>)
    ensures |lines| == |data|
    ensures forall i :: 0 <= i < |data| ==> lines[i] == Marker + data[i]
  {
    seq(|data|, i requires 0 <= i < |data| => Marker + data[i])
  }

  /** The header line of an event: its name, then `:` and the extra if there is one, then the opening `{`. */
  function HeaderLine(e: Event): string
  {
    Marker + e.name + (match e.extra case Some(x) => ":" + x case None => "") + "{"
  }

  /** How the debuggee frames an event: header, data lines, the closing `}` line and the bare marker. */
  function FrameLines(e: Event): seq<string>
  {
    [HeaderLine(e)] + DataLines(e.data) + [Marker + "}", Marker]
  }

  /**
   The events a frame carries unchanged: a non-empty name, data lines of at
   least two characters (shorter ones are dropped), and a header whose last
   separator is the one before the extra, with nothing for the `{` cleanup
   to take off but the opening brace.
   */
  predicate Framable(e: Event)
  {
    && e.name != ""
    && (forall i :: 0 <= i < |e.data| ==> |e.data[i]| >= 2)
    && match e.extra
       case None => ':' !in e.name && '@' !in e.name
       case Some(x) => x != "" && ':' !in x && !EndsWith(e.name, '{')
  }

  /** Data lines of an open event are appended to it, in order, and nothing else changes. */
  lemma {:induction false} DataLinesAppend(s: Session, data: seq<string>)
    requires s.current.name != ""
    requires forall i :: 0 <= i < |data| ==> |data[i]| >= 2
    ensures OnDebugOutput(s, DataLines(data)) == s.(current := s.current.(data := s.current.data + data))
    decreases |data|
  {
    if |data| > 0 {
      var line := Marker + data[0];
      assert DataLines(data)[0] == line;
      assert DataLines(data)[1..] == DataLines(data[1..]);
      assert line[2..] == data[0];
      var s1 := OnLine(s, line);
      assert s1 == s.(current := s.current.(data := s.current.data + [data[0]]));
      DataLinesAppend(s1, data[1..]);
      assert s.current.data + [data[0]] + data[1..] == s.current.data + data;
    }
  }

  /** The header line of a framable event opens that event, with the `{` still attached. */
  lemma HeaderOpens(e: Event)
    requires Framable(e)
    ensures StartEvent(HeaderLine(e)).name != ""
    ensures TrimEvent(StartEvent(HeaderLine(e))) == Event(e.name, e.extra, [])
  {
    if e.extra.None? {
      HeaderOpensPlain(e);
    } else {
      HeaderOpensExtra(e);
    }
  }

  lemma HeaderOpensPlain(e: Event)
    requires Framable(e) && e.extra.None?
    ensures StartEvent(HeaderLine(e)) == Event(e.name + "{", None, [])
  {
    var h := HeaderLine(e);
    assert h == Marker + (e.name + "{");
    assert ':' !in h && '@' !in h;
  }

  lemma HeaderOpensExtra(e: Event)
    requires Framable(e) && e.extra.Some?
    ensures StartEvent(HeaderLine(e)) == Event(e.name, Some(e.extra.value + "{"), [])
  {
    var x := e.extra.value;
    var h := HeaderLine(e);
    var o := StartEvent(h);
    assert h == Marker + e.name + ":" + (x + "{");
    assert ':' !in x + "{";
    assert ':' in h;
    SplitHeaderUnique(h, ':', e.name, x + "{", o.name, o.extra.value);
  }

  /** A split at the last separator is determined by the line. */
  lemma SplitHeaderUnique(line: string, sep: char, a: string, b: string, a': string, b': string)
    requires line == Marker + a + [sep] + b && sep !in b
    requires line == Marker + a' + [sep] + b' && sep !in b'
    ensures a == a' && b == b'
  {
    LastIndexOfBeforeTail(Marker + a, sep, b);
    LastIndexOfBeforeTail(Marker + a', sep, b');
    assert b == line[|line| - |b|..] == b';
    assert Marker + a == line[..|line| - |b| - 1] == Marker + a';
    assert a == (Marker + a)[2..] == (Marker + a')[2..] == a';
  }

  /**
   Framing round trip: the lines the debuggee writes for an event, fed to a
   session with no named event open, close exactly that event. A stop event
   is handled internally (the dump cache is emptied and the client told);
   any other event is appended to the queue. Either way the accumulator is
   reset and nothing else changes.
   */
  lemma FrameRoundTrip(s: Session, e: Event)
    requires Framable(e)
    requires s.current.name == ""
    ensures OnDebugOutput(s, FrameLines(e)) ==
      if IsInternalEvent(e.name) then
        s.(current := NoEvent, cache := map[], isDebugging := true, notices := s.notices + StopNotices(e))
      else
        s.(current := NoEvent, queue := s.queue + [e])
  {
    var h := HeaderLine(e);
    var d := DataLines(e.data);
    var closing := [Marker + "}", Marker];
    var s2 := OpenedFrame(s, e);
    assert FrameLines(e) == ([h] + d) + closing;
    OutputInPieces(s, [h] + d, closing);
    ClosingLines(s2);
    CloseFramed(s, e, s2);
  }

  /** After the header and data lines the event is open with all its data. */
  lemma OpenedFrame(s: Session, e: Event) returns (s2: Session)
    requires Framable(e)
    requires s.current.name == ""
    ensures OnDebugOutput(s, [HeaderLine(e)] + DataLines(e.data)) == s2
    ensures s2 == s.(current := s2.current)
    ensures s2.current.name != "" && TrimEvent(s2.current) == e
  {
    var o := StartEvent(HeaderLine(e));
    s2 := s.(current := o.(data := e.data));
    OpenedSteps(s, e);
    OutputInPieces(s, [HeaderLine(e)], DataLines(e.data));
  }

  /** The two halves of an opened frame: the header line opens the event, and the data lines fill it. */
  lemma OpenedSteps(s: Session, e: Event)
    requires Framable(e)
    requires s.current.name == ""
    ensures var o := StartEvent(HeaderLine(e));
      && OnDebugOutput(s, [HeaderLine(e)]) == s.(current := o)
      && OnDebugOutput(s.(current := o), DataLines(e.data)) == s.(current := o.(data := e.data))
      && o.name != "" && TrimEvent(o.(data := e.data)) == e
  {
    var o := StartEvent(HeaderLine(e));
    var s1 := s.(current := o);
    assert o.name != "" && TrimEvent(o.(data := e.data)) == e by {
      HeaderOpens(e);
      TrimKeepsData(o, e.data);
    }
    HeaderLineRead(s, e);
    DataLinesAppend(s1, e.data);
    assert o.data + e.data == e.data;
  }

  /** An idle parser reads a header line by opening the event it starts. */
  lemma HeaderLineRead(s: Session, e: Event)
    requires Framable(e) && s.current.name == ""
    ensures OnDebugOutput(s, [HeaderLine(e)]) == s.(current := StartEvent(HeaderLine(e)))
  {
    var h := HeaderLine(e);
    assert Marker <= h && |h| > 2;
    SingleLine(s, h);
  }

  /** The cleanup does not look at the data. */
  lemma TrimKeepsData(e: Event, data: seq<string>)
    ensures TrimEvent(e.(data := data)) == TrimEvent(e).(data := data)
  {
  }

  lemma CloseFramed(s: Session, e: Event, s2: Session)
    requires s2 == s.(current := s2.current)
    requires TrimEvent(s2.current) == e
    ensures CloseEvent(s2) ==
      if IsInternalEvent(e.name) then
        s.(current := NoEvent, cache := map[], isDebugging := true, notices := s.notices + StopNotices(e))
      else
        s.(current := NoEvent, queue := s.queue + [e])
  {
  }

  lemma SingleLine(s: Session, line: string)
    ensures OnDebugOutput(s, [line]) == OnLine(s, line)
  {
    assert [line][1..] == [];
  }

  /** The closing `}` line is ignored and the bare marker closes the event. */
  lemma ClosingLines(s: Session)
    requires s.current.name != ""
    ensures OnDebugOutput(s, [Marker + "}", Marker]) == CloseEvent(s)
  {
    var closing := [Marker + "}", Marker];
    assert closing[1..] == [Marker];
    assert OnLine(s, Marker + "}") == s;
    SingleLine(s, Marker);
  }

  /**
   The reply a waiting request receives: when the debuggee frames one
   queued event in answer to a command, `getNextEvent` hands back exactly
   that event and leaves the queue as it was before.
   */
  lemma ReplyDelivered(s: Session, e: Event)
    requires Framable(e) && !IsInternalEvent(e.name)
    requires s.current.name == ""
    ensures GetNextEvent(OnDebugOutput(s, FrameLines(e))) == (s.(current := NoEvent), Some(e))
  {
    FrameRoundTrip(s, e);
    PushPop(s.(current := NoEvent), e);
  }
}

=== FILE: js_string.dfy ===
/**
 JavaScript string operations the debugger bridge relies on, with their
 exact edge-case behaviour: `indexOf`/`lastIndexOf` answer -1 when the
 needle is absent, `slice` and `substr` count negative positions from the
 end, `substring` clamps negatives to 0 and swaps reversed bounds, and
 `split` always yields at least one part.
 */
module JsString {

  /** `s.indexOf(c)` for a one-character needle: the first position of `c`, or -1. */
  function IndexOf(s: string, c: char): (r: int)
    ensures -1 <= r < |s|
    ensures r == -1 <==> c !in s
    ensures 0 <= r ==> s[r] == c && c !in s[..r]
  {
    if |s| == 0 then -1
    else if s[0] == c then 0
    else
      var k := IndexOf(s[1..], c);
      assert s == [s[0]] + s[1..];
      if k == -1 then -1
      else
        assert s[..k + 1] == [s[0]] + s[1..][..k];
        k + 1
  }

  /** `s.lastIndexOf(c)` for a one-character needle: the last position of `c`, or -1. */
  function LastIndexOf(s: string, c: char): (r: int)
    ensures -1 <= r < |s|
    ensures r == -1 <==> c !in s
    ensures 0 <= r ==> s[r] == c && c !in s[r + 1..]
  {
    if |s| == 0 then -1
    else if s[|s| - 1] == c then |s| - 1
    else
      var k := LastIndexOf(s[..|s| - 1], c);
      assert s == s[..|s| - 1] + [s[|s| - 1]];
      if k == -1 then -1
      else
        assert s[k + 1..] == s[..|s| - 1][k + 1..] + [s[|s| - 1]];
        k
  }

  /** `s.endsWith(c)` for a one-character suffix. */
  predicate EndsWith(s: string, c: char)
  {
    |s| > 0 && s[|s| - 1] == c
  }

  /**
   Resolves a `slice` or `substr` position: a negative position counts back
   from the end, and the result is clamped into [0, len].
   */
  function RelativeIndex(i: int, len: nat): (r: nat)
    ensures r <= len
    ensures 0 <= i <= len ==> r == i
    ensures i < 0 && 0 <= len + i ==> r == len + i
    ensures len + i < 0 ==> r == 0
    ensures len < i ==> r == len
  {
    if i < 0 then (if len + i < 0 then 0 else len + i)
    else if i > len then len
    else i
  }

  /** `s.slice(start, end)`: empty when the resolved end is not after the resolved start. */
  function Slice(s: string, start: int, end: int): (r: string)
    ensures |r| <= |s|
    ensures 0 <= start <= end <= |s| ==> r == s[start..end]
    ensures 0 <= start && end < 0 && start <= |s| + end ==> r == s[start..|s| + end]
    ensures RelativeIndex(end, |s|) <= RelativeIndex(start, |s|) ==> r == []
  {
    var from := RelativeIndex(start, |s|);
    var to := RelativeIndex(end, |s|);
    if from < to then s[from..to] else []
  }

  /** `s.slice(start)`: everything from the resolved start on. */
  function SliceFrom(s: string, start: int): (r: string)
    ensures 0 <= start <= |s| ==> r == s[start..]
    ensures |s| + start < 0 ==> r == s
  {
    Slice(s, start, |s|)
  }

  /** `s.substr(start, length)`: at most `length` characters from the resolved start; none for a negative length. */
  function Substr(s: string, start: int, length: int): (r: string)
    ensures length <= 0 ==> r == []
    ensures 0 <= start && 0 <= length && start + length <= |s| ==> r == s[start..start + length]
    ensures 0 <= start <= |s| && |s| <= start + length ==> r == s[start..]
  {
    var from := RelativeIndex(start, |s|);
    var count := if length < 0 then 0 else if length > |s| - from then |s| - from else length;
    s[from..from + count]
  }

  /** `s.substr(start)`, with the length left out: everything from the resolved start on. */
  function SubstrFrom(s: string, start: int): (r: string)
    ensures 0 <= start <= |s| ==> r == s[start..]
  {
    Substr(s, start, |s|)
  }

  /** `s.substring(a, b)`: each bound clamped into [0, |s|], then taken in increasing order. */
  function Substring(s: string, a: int, b: int): (r: string)
    ensures 0 <= a <= b <= |s| ==> r == s[a..b]
    ensures 0 <= b <= a <= |s| ==> r == s[b..a]
    ensures b < 0 <= a <= |s| ==> r == s[..a]
    ensures a < 0 <= b <= |s| ==> r == s[..b]
    ensures 0 <= b <= |s| < a ==> r == s[b..]
    ensures 0 <= a <= |s| < b ==> r == s[a..]
    ensures a <= 0 && b <= 0 ==> r == []
    ensures |s| <= a && |s| <= b ==> r == []
    ensures a <= 0 && |s| <= b ==> r == s
    ensures b <= 0 && |s| <= a ==> r == s
  {
    var x := if a < 0 then 0 else if a > |s| then |s| else a;
    var y := if b < 0 then 0 else if b > |s| then |s| else b;
    if x <= y then s[x..y] else s[y..x]
  }

  /** `substring` does not care in which order its bounds are given. */
  lemma SubstringSymmetric(s: string, a: int, b: int)
    ensures Substring(s, a, b) == Substring(s, b, a)
  {
  }

  /** The text before the first space, taken with `substr` from 0: empty when there is no space. */
  function FirstWord(s: string): (r: string)
    ensures ' ' !in r
    ensures ' ' in s ==> r + " " <= s
    ensures ' ' !in s ==> r == ""
  {
    Substr(s, 0, IndexOf(s, ' '))
  }

  /** The text after the first space, taken with `slice`: all of `s` when there is no space. */
  function AfterFirstSpace(s: string): (r: string)
    ensures ' ' in s ==> s == FirstWord(s) + " " + r
    ensures ' ' !in s ==> r == s
  {
    var i := IndexOf(s, ' ');
    if i >= 0 then assert s == s[..i] + " " + s[i + 1..]; SliceFrom(s, i + 1)
    else SliceFrom(s, i + 1)
  }

  /** ASCII lower-casing of one character. */
  function LowerChar(c: char): char
  {
    if 'A' <= c <= 'Z' then (c as int + 32) as char else c
  }

  /** `s.toLowerCase()`, restricted to ASCII letters. */
  function ToLower(s: string): (r: string)
    ensures |r| == |s|
    ensures forall i :: 0 <= i < |r| ==> !('A' <= r[i] <= 'Z')
    ensures forall i :: 0 <= i < |s| && !('A' <= s[i] <= 'Z') ==> r[i] == s[i]
    ensures forall i :: 0 <= i < |s| && 'A' <= s[i] <= 'Z' ==> r[i] as int == s[i] as int + 32
  {
    seq(|s|, i requires 0 <= i < |s| => LowerChar(s[i]))
  }

  /** Lower-casing twice is lower-casing once. */
  lemma ToLowerIdempotent(s: string)
    ensures ToLower(ToLower(s)) == ToLower(s)
  {
  }

  /** The parts joined back together with `sep` between neighbours (`parts.join(sep)`). */
  function Join(parts: seq<string>, sep: char): string
  {
    if |parts| == 0 then ""
    else if |parts| == 1 then parts[0]
    else parts[0] + [sep] + Join(parts[1..], sep)
  }

  /** `s.split(sep)` for a one-character separator: the maximal separator-free pieces, left to right. */
  function Split(s: string, sep: char): (r: seq<string>)
    ensures |r| >= 1
    ensures forall i :: 0 <= i < |r| ==> sep !in r[i]
    ensures Join(r, sep) == s
    decreases |s|
  {
    var k := IndexOf(s, sep);
    if k == -1 then [s]
    else
      var rest := Split(s[k + 1..], sep);
      var r := [s[..k]] + rest;
      assert r[1..] == rest;
      assert Join(r, sep) == s[..k] + [sep] + Join(rest, sep);
      assert s == s[..k] + [sep] + s[k + 1..];
      assert sep !in s[..k];
      r
  }

  /** The first separator of `a + [sep] + b` is the one after `a` when `a` has none. */
  lemma IndexOfAfterPart(a: string, sep: char, b: string)
    requires sep !in a
    ensures IndexOf(a + [sep] + b, sep) == |a|
  {
    var s := a + [sep] + b;
    var k := IndexOf(s, sep);
    assert s[|a|] == sep;
    assert s[..|a|] == a;
  }

  /** The last separator of `a + [sep] + b` is the one before `b` when `b` has none. */
  lemma LastIndexOfBeforeTail(a: string, sep: char, b: string)
    requires sep !in b
    ensures LastIndexOf(a + [sep] + b, sep) == |a|
  {
    var s := a + [sep] + b;
    assert s[|a|] == sep;
    assert s[|a| + 1..] == b;
  }

  /** Splitting separator-free parts joined by the separator gives the parts back. */
  lemma {:induction false} SplitJoin(parts: seq<string>, sep: char)
    requires |parts| >= 1
    requires forall i :: 0 <= i < |parts| ==> sep !in parts[i]
    ensures Split(Join(parts, sep), sep) == parts
    decreases |parts|
  {
    if |parts| > 1 {
      var s := Join(parts, sep);
      var rest := Join(parts[1..], sep);
      assert s == parts[0] + [sep] + rest;
      IndexOfAfterPart(parts[0], sep, rest);
      assert s[..|parts[0]|] == parts[0];
      assert s[|parts[0]| + 1..] == rest;
      SplitJoin(parts[1..], sep);
      assert parts == [parts[0]] + parts[1..];
    }
  }

  /** Concatenation is associative. */
  lemma Regroup<T>(a: seq<T>, b: seq<T>, c: seq<T>)
    ensures (a + b) + c == a + (b + c)
  {
  }

  /** A character that is neither the separator nor in any part is not in the joined text. */
  lemma {:induction false} JoinAvoids(parts: seq<string>, sep: char, c: char)
    requires c != sep
    requires forall i :: 0 <= i < |parts| ==> c !in parts[i]
    ensures c !in Join(parts, sep)
    decreases |parts|
  {
    if |parts| > 1 {
      JoinAvoids(parts[1..], sep, c);
    }
  }

  /** `p` occurs in `s` starting at position `i`. */
  predicate OccursAt(s: string, p: string, i: int)
  {
    0 <= i && i + |p| <= |s| && s[i..i + |p|] == p
  }

  /** Occurrences in the tail of `s` are the occurrences in `s` one position later. */
  lemma OccursShift(s: string, p: string)
    requires |s| > 0
    ensures forall i :: 0 <= i ==> (OccursAt(s[1..], p, i) <==> OccursAt(s, p, i + 1))
    ensures forall i :: 1 <= i && OccursAt(s, p, i) ==> OccursAt(s[1..], p, i - 1)
  {
    forall i | 0 <= i
      ensures OccursAt(s[1..], p, i) <==> OccursAt(s, p, i + 1)
    {
      if 0 <= i && i + |p| <= |s| - 1 {
        assert s[1..][i..i + |p|] == s[i + 1..i + 1 + |p|];
      }
    }
  }

  /** A text whose first character is absent from `s` occurs nowhere in it. */
  lemma AbsentNeverOccurs(s: string, p: string)
    requires |p| > 0 && p[0] !in s
    ensures forall i :: !OccursAt(s, p, i)
  {
    forall i
      ensures !OccursAt(s, p, i)
    {
      assert 0 <= i && i + |p| <= |s| ==> s[i] == s[i..i + |p|][0];
    }
  }

  /** When the needle's first character is absent from `a`, its first occurrence in `a + p + b` is right after `a`. */
  lemma FirstOccurrence(a: string, p: string, b: string)
    requires |p| > 0 && p[0] !in a
    ensures OccursAt(a + p + b, p, |a|)
    ensures forall i :: 0 <= i < |a| ==> !OccursAt(a + p + b, p, i)
  {
    var s := a + p + b;
    assert s[|a|..|a| + |p|] == p;
    forall i | 0 <= i < |a|
      ensures !OccursAt(s, p, i)
    {
      assert s[i] == a[i];
      assert i + |p| <= |s| ==> s[i..i + |p|][0] == s[i];
    }
  }

  /** `s.indexOf(p)` for a text needle: the first position where `p` occurs, or -1. */
  function IndexOfText(s: string, p: string): (r: int)
    ensures -1 <= r <= |s|
    ensures r == -1 <==> forall i :: !OccursAt(s, p, i)
    ensures 0 <= r ==> OccursAt(s, p, r) && forall i :: 0 <= i < r ==> !OccursAt(s, p, i)
    decreases |s|
  {
    if |s| < |p| then -1
    else if s[..|p|] == p then assert OccursAt(s, p, 0); 0
    else
      var k := IndexOfText(s[1..], p);
      OccursShift(s, p);
      assert !OccursAt(s, p, 0);
      if k == -1 then -1 else k + 1
  }

  /** `s.replace(p, rep)` with a text pattern: only the first occurrence is replaced. */
  function ReplaceFirst(s: string, p: string, rep: string): (r: string)
  {
    var k := IndexOfText(s, p);
    if k == -1 then s else s[..k] + rep + s[k + |p|..]
  }

  /** `replace` leaves a text without the pattern alone and otherwise swaps the first occurrence only. */
  lemma ReplaceFirstSpec(s: string, p: string, rep: string)
    ensures (forall i :: !OccursAt(s, p, i)) ==> ReplaceFirst(s, p, rep) == s
    ensures forall k :: OccursAt(s, p, k) && (forall i :: 0 <= i < k ==> !OccursAt(s, p, i)) ==>
      ReplaceFirst(s, p, rep) == s[..k] + rep + s[k + |p|..]
  {
    var k := IndexOfText(s, p);
    forall k' | OccursAt(s, p, k') && (forall i :: 0 <= i < k' ==> !OccursAt(s, p, i))
      ensures k' == k
    {
    }
  }

  /** When the pattern's first character is absent from `a`, `replace` swaps the occurrence right after `a`. */
  lemma ReplaceAfter(a: string, p: string, b: string, rep: string)
    requires |p| > 0 && p[0] !in a
    ensures ReplaceFirst(a + p + b, p, rep) == a + rep + b
  {
    var s := a + p + b;
    FirstOccurrence(a, p, b);
    var k := IndexOfText(s, p);
    assert k == |a|;
    assert s[..|a|] == a && s[|a| + |p|..] == b;
  }
}

=== FILE: model.dfy ===
/**
 The data the BlitzMax debugger bridge keeps for one debug session: the
 event being framed, the queue of framed events waiting for a request, the
 reference counter, the frames and scopes of the current stop, the cached
 scope dumps, the handle variables awaiting expansion and the variable
 index used by `evaluate`.
 */
module Model {
  import opened Wrappers

  /** One framed debugger event: the header's name and optional extra text, then its data lines. */
  datatype Event = Event(name: string, extra: Option<string>, data: seq<string>)

  /** The reset accumulator `{ name: '', data: [] }`: no event is open. */
  const NoEvent: Event := Event("", None, [])

  /** What the bridge tells the debugging client. */
  datatype Notice =
    | Output(text: string)          // an `OutputEvent` in the stderr category
    | Stopped(reason: string)       // a `StoppedEvent` on the single thread
    | Continued                     // a `ContinuedEvent` on the single thread
    | ErrorModal(message: string)   // the modal error message box

  /**
   A stack frame. `position` holds the comma-separated parts of the
   `<line,col>` text; the numbers the client sees are `Number` of its first
   two parts. The synthetic application-stack frame has `isAppStack` set
   (and, in the client, the 'subtle' presentation hint).
   */
  datatype Frame = Frame(id: nat, name: string, sourcePath: string, position: seq<string>, isAppStack: bool)

  /** A scope: the frame's label line, its variables reference and the frame it belongs to. */
  datatype Scope = Scope(name: string, reference: nat, parent: Frame)

  /**
   A variable. `reference` is 0 unless the value is an object handle
   awaiting expansion. Its type tag and lookup keys are functions of its
   name (`Variables.DefineType`, `Variables.FuzzyNames`), so they are not
   stored a second time.
   */
  datatype Variable = Variable(name: string, value: string, reference: nat)

  /**
   The session state. `cache` is `cachedDumpForReference` (reference id to
   raw dump lines), `pending` is `referenceVariables` and `variableMap` is
   the ordered variable index, keyed by variable name.
   */
  datatype Session = Session(
    showEmptyScopes: bool,
    current: Event,
    queue: seq<Event>,
    nextRef: nat,
    stacks: seq<Frame>,
    scopes: seq<Scope>,
    cache: map<int, seq<string>>,
    pending: seq<Variable>,
    variableMap: seq<(string, Variable)>,
    isDebugging: bool,
    notices: seq<Notice>)

  /** A fresh session, with the client's `showEmptyScopes` setting. */
  function NewSession(showEmptyScopes: bool): Session
  {
    Session(showEmptyScopes, NoEvent, [], 0, [], [], map[], [], [], false, [])
  }

  /** The result of a client request: the new state, what was written to the debuggee, and the response body. */
  datatype Outcome<T> = Outcome(session: Session, sent: seq<string>, body: T)

  /** `sendInputToDebugger(key)`: the text written to the debuggee's standard input. */
  function Command(key: string): string
  {
    key + "\n"
  }
}

=== FILE: ordered_map.dfy ===
/**
 A JavaScript `Map` with string keys as an association list: entries iterate in insertion
 order, and `set` on a key that is already present replaces its value
 without moving the entry.
 */
module OrderedMap {
  import opened Wrappers

  type Entries<V> = seq<(string, V)>

  /** The keys, in iteration order. */
  function Keys<V>(m: Entries<V>): (ks: seq<string>)
    ensures |ks| == |m|
    ensures forall i :: 0 <= i < |m| ==> ks[i] == m[i].0
    ensures forall k :: k in ks <==> exists i :: 0 <= i < |m| && m[i].0 == k
  {
    seq(|m|, i requires 0 <= i < |m| => m[i].0)
  }

  /** No key is stored twice, as in every JavaScript `Map`. */
  predicate DistinctKeys<V>(m: Entries<V>)
  {
    forall i, j :: 0 <= i < j < |m| ==> m[i].0 != m[j].0
  }

  /** The position of the entry for `k`, or -1 when there is none. */
  function Find<V>(m: Entries<V>, k: string): (r: int)
    ensures -1 <= r < |m|
    ensures r == -1 <==> k !in Keys(m)
    ensures 0 <= r ==> m[r].0 == k && forall j :: 0 <= j < r ==> m[j].0 != k
  {
    if |m| == 0 then -1
    else if m[0].0 == k then 0
    else
      var r := Find(m[1..], k);
      assert k in Keys(m) <==> k in Keys(m[1..]) by {
        assert forall j :: 1 <= j < |m| ==> Keys(m)[j] == Keys(m[1..])[j - 1];
      }
      if r == -1 then -1 else r + 1
  }

  /** `m.get(k)`. */
  function Get<V>(m: Entries<V>, k: string): (r: Option<V>)
    ensures r.None? <==> k !in Keys(m)
    ensures r.Some? ==> exists i :: 0 <= i < |m| && m[i] == (k, r.value) && forall j :: 0 <= j < i ==> m[j].0 != k
  {
    var i := Find(m, k);
    if i == -1 then None else Some(m[i].1)
  }

  /** `m.set(k, v)`: a new key goes to the end, an existing key keeps its place. */
  function Set<V>(m: Entries<V>, k: string, v: V): (r: Entries<V>)
    ensures Get(r, k) == Some(v)
    ensures forall k' :: k' != k ==> Get(r, k') == Get(m, k')
    ensures k in Keys(m) ==> Keys(r) == Keys(m)
    ensures k !in Keys(m) ==> Keys(r) == Keys(m) + [k]
    ensures DistinctKeys(m) ==> DistinctKeys(r)
  {
    var i := Find(m, k);
    if i >= 0 then
      var r := m[i := (k, v)];
      assert Keys(r) == Keys(m);
      FindUpdate(m, i, k, v);
      r
    else
      var r := m + [(k, v)];
      assert Keys(r) == Keys(m) + [k];
      FindAppend(m, k, v);
      r
  }

  lemma FindUpdate<V>(m: Entries<V>, i: nat, k: string, v: V)
    requires i < |m| && m[i].0 == k
    ensures forall k' :: Find(m[i := (k, v)], k') == Find(m, k')
  {
    forall k' ensures Find(m[i := (k, v)], k') == Find(m, k') {
      FindUpdateOne(m, i, k, v, k');
    }
  }

  lemma FindUpdateOne<V>(m: Entries<V>, i: nat, k: string, v: V, k': string)
    requires i < |m| && m[i].0 == k
    ensures Find(m[i := (k, v)], k') == Find(m, k')
    decreases |m|
  {
    if 0 < i && m[0].0 != k' {
      assert m[i := (k, v)][1..] == m[1..][i - 1 := (k, v)];
      FindUpdateOne(m[1..], i - 1, k, v, k');
    }
  }

  lemma FindAppend<V>(m: Entries<V>, k: string, v: V)
    requires k !in Keys(m)
    ensures Find(m + [(k, v)], k) == |m|
    ensures forall k' :: k' != k ==> Find(m + [(k, v)], k') == Find(m, k')
  {
    forall k' ensures Find(m + [(k, v)], k') == (if k' == k then |m| else Find(m, k')) {
      FindAppendOne(m, k, v, k');
    }
  }

  lemma FindAppendOne<V>(m: Entries<V>, k: string, v: V, k': string)
    requires k !in Keys(m)
    ensures Find(m + [(k, v)], k') == (if k' == k then |m| else Find(m, k'))
  {
    var m' := m + [(k, v)];
    var r := Find(m', k');
    assert Keys(m')[|m|] == k;
    assert forall j :: 0 <= j < |m| ==> m'[j] == m[j];
    if k' != k {
      var q := Find(m, k');
      if q >= 0 {
        assert Keys(m')[q] == k';
      } else {
        assert forall j :: 0 <= j < |m'| ==> Keys(m')[j] != k';
      }
    }
  }

  /** The first entry, in iteration order, whose value satisfies `p`, or -1. */
  function FirstWhere<V>(m: Entries<V>, p: V -> bool): (r: int)
    ensures -1 <= r < |m|
    ensures r == -1 <==> forall i :: 0 <= i < |m| ==> !p(m[i].1)
    ensures 0 <= r ==> p(m[r].1) && forall i :: 0 <= i < r ==> !p(m[i].1)
  {
    if |m| == 0 then -1
    else if p(m[0].1) then 0
    else
      var r := FirstWhere(m[1..], p);
      if r == -1 then -1 else r + 1
  }

  /** The first entry whose value satisfies `p` is found, whatever follows it. */
  lemma FirstWhereIs<V>(m: Entries<V>, p: V -> bool, i: nat)
    requires i < |m| && p(m[i].1)
    requires forall j :: 0 <= j < i ==> !p(m[j].1)
    ensures FirstWhere(m, p) == i
  {
  }
}

=== FILE: references.dfy ===
/**
 The reference allocator shared by frames, scopes and handle variables:
 `resetReferenceId` sets the counter to 0 and `getNextReferenceId`
 pre-increments it and returns the new value.
 */
module References {

  /** The counter value `resetReferenceId` restores. */
  const Reset: nat := 0

  /** `getNextReferenceId` on a counter: the id handed out, which is also the new counter. */
  function NextReferenceId(counter: nat): (id: nat)
    ensures counter < id
  {
    counter + 1
  }

  /** The ids handed out by `k` allocations in a row, starting from `counter`. */
  function Allocations(counter: nat, k: nat): (ids: seq<nat>)
    ensures |ids| == k
    ensures forall i :: 0 <= i < k ==> counter < ids[i]
    ensures forall i, j :: 0 <= i < j < k ==> ids[i] < ids[j]
    decreases k
  {
    if k == 0 then []
    else [NextReferenceId(counter)] + Allocations(NextReferenceId(counter), k - 1)
  }

  /** Successive allocations from any counter hand out the next numbers, one by one. */
  lemma {:induction false} AllocationsCountUp(counter: nat, k: nat)
    ensures forall i :: 0 <= i < k ==> Allocations(counter, k)[i] == counter + i + 1
    decreases k
  {
    if k > 0 {
      AllocationsCountUp(counter + 1, k - 1);
    }
  }

  /** After a reset the ids are 1, 2, 3, ...: never 0, which the client reads as "no reference". */
  lemma AllocationsAfterReset(k: nat)
    ensures forall i :: 0 <= i < k ==> Allocations(Reset, k)[i] == i + 1
  {
    AllocationsCountUp(Reset, k);
  }
}

=== FILE: requests.dfy ===
/**
 The client requests the bridge answers from its session state
 (src/bmxdebugger.ts): stack trace, scopes, variables, evaluate, and the
 execution-control requests. A request that waits on the debuggee takes
 the debuggee's output that arrives meanwhile as a parameter; that output
 goes through the event parser and the reply is the event `getNextEvent`
 then takes off the queue.
 */
module Requests {
  import opened Wrappers
  import opened JsString
  import opened Model
  import OrderedMap
  import References
  import EventFrames
  import Variables
  import StackDump

  /** The debuggee's output that arrives while a request waits, then `getNextEvent`. */
  function AwaitReply(s: Session, arrived: seq<string>): (r: (Session, Option<Event>))
    ensures r.0.pending == s.pending && r.0.variableMap == s.variableMap && r.0.scopes == s.scopes
    ensures r.0.stacks == s.stacks && r.0.nextRef == s.nextRef && r.0.showEmptyScopes == s.showEmptyScopes
  {
    EventFrames.OutputTouches(s, arrived);
    EventFrames.GetNextEvent(EventFrames.OnDebugOutput(s, arrived))
  }

  // ---------------------------------------------------------------- stack trace

  /** The stack trace response body. */
  datatype StackBody = StackBody(stackFrames: seq<Frame>, totalFrames: nat)

  /**
   `onStackTraceRequest`: reset the counter, the frames, the scopes and the
   pending handles, send `t`, and parse the reply's data lines. Without a
   reply the response has no body.
   */
  function StackTraceRequest(s: Session, arrived: seq<string>): (o: Outcome<Option<StackBody>>)
    ensures o.sent == [Command("t")]
    ensures o.session.pending == [] && o.session.variableMap == s.variableMap
    ensures o.body.Some? ==>
      && o.session.stacks == o.body.value.stackFrames
      && Traced(o.session)
      && o.body.value.totalFrames == (if |o.session.stacks| == 0 then 0 else |o.session.stacks| - 1)
    ensures o.body.None? ==> o.session.stacks == [] && o.session.scopes == [] && o.session.nextRef == References.Reset
    ensures RefsBelow(o.session)
  {
    var s0 := s.(nextRef := References.Reset, stacks := [], scopes := [], pending := []);
    var (s1, reply) := AwaitReply(s0, arrived);
    match reply
    case None => Outcome(s1, [Command("t")], None)
    case Some(e) =>
      var t := StackDump.StackTrace(s1.cache, e.data);
      StackDump.StackTraceIds(s1.cache, e.data);
      var s2 := s1.(nextRef := t.nextRef, stacks := t.frames, scopes := t.scopes, cache := t.cache);
      Adopted(s1, t);
      Outcome(s2, [Command("t")], Some(StackBody(t.frames, t.totalFrames)))
  }

  /** A session that takes over a well-numbered trace is traced. */
  lemma Adopted(s: Session, t: StackDump.Trace)
    requires StackDump.WellNumbered(t)
    ensures Traced(s.(nextRef := t.nextRef, stacks := t.frames, scopes := t.scopes, cache := t.cache))
    ensures RefsBelow(s.(nextRef := t.nextRef, stacks := t.frames, scopes := t.scopes, cache := t.cache))
  {
  }

  /** No frame id and no scope reference is above the reference counter. */
  predicate RefsBelow(s: Session)
  {
    && (forall i :: 0 <= i < |s.stacks| ==> s.stacks[i].id <= s.nextRef)
    && (forall j :: 0 <= j < |s.scopes| ==> s.scopes[j].reference <= s.nextRef)
  }

  // ---------------------------------------------------------------- scopes

  /** `isAppStack(id)`: the scan over the frames, skipping those with id 0, for the application frame with that id. */
  function IsAppStack(stacks: seq<Frame>, id: int): (b: bool)
    ensures b <==> exists i :: 0 <= i < |stacks| && stacks[i].id != 0 && stacks[i].id == id && stacks[i].isAppStack
    decreases |stacks|
  {
    if |stacks| == 0 then false
    else if stacks[0].id == 0 then IsAppStack(stacks[1..], id)
    else if stacks[0].id == id && stacks[0].isAppStack then true
    else
      assert forall i :: 1 <= i < |stacks| ==> stacks[i] == stacks[1..][i - 1];
      IsAppStack(stacks[1..], id)
  }

  /** `scopes[frameId]`: the scope stored under the frame's id, if any. */
  function ScopeAt(scopes: seq<Scope>, frameId: int): (r: Option<Scope>)
    ensures r.None? <==> forall j :: 0 <= j < |scopes| ==> scopes[j].parent.id != frameId
    ensures r.Some? ==> r.value in scopes && r.value.parent.id == frameId
    decreases |scopes|
  {
    if |scopes| == 0 then None
    else if scopes[0].parent.id == frameId then Some(scopes[0])
    else ScopeAt(scopes[1..], frameId)
  }

  /** The scopes not belonging to an application frame, each unshifted in turn: the last one first. */
  function Unshifted(scopes: seq<Scope>): seq<Scope>
    decreases |scopes|
  {
    if |scopes| == 0 then []
    else Unshifted(scopes[1..]) + (if scopes[0].parent.isAppStack then [] else [scopes[0]])
  }

  /** The listed scopes are exactly those that do not belong to an application frame. */
  lemma {:induction false} UnshiftedMembers(scopes: seq<Scope>, x: Scope)
    ensures x in Unshifted(scopes) <==> x in scopes && !x.parent.isAppStack
    decreases |scopes|
  {
    if |scopes| > 0 {
      UnshiftedMembers(scopes[1..], x);
      assert scopes == [scopes[0]] + scopes[1..];
    }
  }

  /**
   The scopes response: no body, a list of scopes, the list `[undefined]`
   (an unknown frame with empty scopes shown), or the `TypeError` thrown by
   reading the reference of an unknown frame's scope.
   */
  datatype ScopesBody = NoBody | Listed(scopes: seq<Scope>) | UndefinedEntry | Thrown

  /** `onScopesRequest`. */
  function ScopesRequest(s: Session, frameId: int): ScopesBody
  {
    if IsAppStack(s.stacks, frameId) then Listed(Unshifted(s.scopes))
    else
      match ScopeAt(s.scopes, frameId)
      case Some(sc) => if s.showEmptyScopes || sc.reference in s.cache then Listed([sc]) else NoBody
      case None => if s.showEmptyScopes then UndefinedEntry else Thrown
  }

  /** Unshifting scopes none of which belongs to an application frame reverses them. */
  lemma {:induction false} UnshiftedReverses(scopes: seq<Scope>)
    requires forall j :: 0 <= j < |scopes| ==> !scopes[j].parent.isAppStack
    ensures |Unshifted(scopes)| == |scopes|
    ensures forall i :: 0 <= i < |scopes| ==> Unshifted(scopes)[i] == scopes[|scopes| - 1 - i]
    decreases |scopes|
  {
    if |scopes| > 0 {
      var rest := scopes[1..];
      assert forall j :: 0 <= j < |rest| ==> rest[j] == scopes[j + 1];
      UnshiftedReverses(rest);
      var u := Unshifted(rest);
      var r := Unshifted(scopes);
      assert r == u + [scopes[0]];
      forall i | 0 <= i < |scopes| ensures r[i] == scopes[|scopes| - 1 - i] {
        if i < |scopes| - 1 {
          assert r[i] == u[i] == rest[|rest| - 1 - i];
        }
      }
    }
  }

  /** The session right after a stack trace with a body. */
  predicate Traced(s: Session)
  {
    StackDump.WellNumbered(StackDump.Trace(s.nextRef, s.stacks, 0, s.scopes, s.cache))
  }

  /**
   Asked for the application frame, the scopes request lists the scope of
   every kept frame, in the order the frames are listed: the i-th scope is
   that of the frame after the application frame by i places.
   */
  lemma AppFrameScopes(s: Session)
    requires Traced(s) && |s.stacks| > 0
    ensures ScopesRequest(s, s.stacks[0].id).Listed?
    ensures var listed := ScopesRequest(s, s.stacks[0].id).scopes;
      && |listed| == |s.stacks| - 1
      && forall i :: 0 <= i < |listed| ==> listed[i].parent == s.stacks[i + 1]
  {
    assert s.stacks[0].isAppStack;
    assert IsAppStack(s.stacks, s.stacks[0].id);
    forall j | 0 <= j < |s.scopes| ensures !s.scopes[j].parent.isAppStack {
      assert s.scopes[j].parent == s.stacks[|s.stacks| - 1 - j];
    }
    UnshiftedReverses(s.scopes);
  }

  /**
   Asked for a kept frame, the scopes request lists that frame's own scope
   when empty scopes are shown or the scope has cached variables, and
   gives no body otherwise.
   */
  lemma KeptFrameScope(s: Session, k: nat)
    requires Traced(s) && 0 < k < |s.stacks|
    ensures var sc := s.scopes[|s.stacks| - 1 - k];
      && sc.parent == s.stacks[k]
      && ScopesRequest(s, s.stacks[k].id) == if s.showEmptyScopes || sc.reference in s.cache then Listed([sc]) else NoBody
  {
    var n := |s.stacks|;
    var sc := s.scopes[n - 1 - k];
    assert sc.parent == s.stacks[k];
    assert !IsAppStack(s.stacks, s.stacks[k].id) by {
      forall i | 0 <= i < n && s.stacks[i].isAppStack ensures s.stacks[i].id != s.stacks[k].id {
        assert i == 0;
      }
    }
    ScopeAtUnique(s.scopes, n - 1 - k);
  }

  /**
   Asked for a frame that is neither the application frame nor the owner of
   a scope, the request lists `[undefined]` when empty scopes are shown and
   throws otherwise, reading the reference of a missing scope.
   */
  lemma UnknownFrameScope(s: Session, frameId: int)
    requires !IsAppStack(s.stacks, frameId)
    requires forall j :: 0 <= j < |s.scopes| ==> s.scopes[j].parent.id != frameId
    ensures ScopesRequest(s, frameId) == if s.showEmptyScopes then UndefinedEntry else Thrown
  {
  }

  /** With distinct parent ids, looking a scope up by its parent's id finds it. */
  lemma ScopeAtUnique(scopes: seq<Scope>, j: nat)
    requires j < |scopes|
    requires forall a, b :: 0 <= a < b < |scopes| ==> scopes[a].reference < scopes[b].reference
    requires forall a :: 0 <= a < |scopes| ==> scopes[a].reference == scopes[a].parent.id + 1
    ensures ScopeAt(scopes, scopes[j].parent.id) == Some(scopes[j])
    decreases j
  {
    if j > 0 {
      assert scopes[0].parent.id != scopes[j].parent.id;
      ScopeAtUnique(scopes[1..], j - 1);
    }
  }

  // ---------------------------------------------------------------- variables

  /** `isRootScopeReference(ref)`: the scan over the scopes, skipping those with reference 0, for one with reference `ref`. */
  function IsRootScopeReference(scopes: seq<Scope>, ref: int): (b: bool)
    ensures b <==> exists j :: 0 <= j < |scopes| && scopes[j].reference != 0 && scopes[j].reference == ref
    decreases |scopes|
  {
    if |scopes| == 0 then false
    else if scopes[0].reference == 0 then IsRootScopeReference(scopes[1..], ref)
    else if scopes[0].reference == ref then true
    else
      assert forall j :: 1 <= j < |scopes| ==> scopes[j] == scopes[1..][j - 1];
      IsRootScopeReference(scopes[1..], ref)
  }

  /** The entry a root scope without cached variables shows. */
  const NoVariables: Variable := Variable("no variables", "", 0)

  /** The position of the first pending handle with the given reference, or -1. */
  function PendingIndex(pending: seq<Variable>, ref: int): (r: int)
    ensures -1 <= r < |pending|
    ensures r == -1 <==> forall i :: 0 <= i < |pending| ==> pending[i].reference != ref
    ensures 0 <= r ==> pending[r].reference == ref && forall i :: 0 <= i < r ==> pending[i].reference != ref
    decreases |pending|
  {
    if |pending| == 0 then -1
    else if pending[0].reference == ref then 0
    else
      var k := PendingIndex(pending[1..], ref);
      if k == -1 then -1 else k + 1
  }

  /** `xs.splice(i, 1)` at an index found in the list: the list without its i-th element. */
  function RemoveAt<T>(xs: seq<T>, i: int): (r: seq<T>)
    requires 0 <= i < |xs|
    ensures |r| == |xs| - 1 && xs == r[..i] + [xs[i]] + r[i..]
  {
    assert xs == xs[..i] + [xs[i]] + xs[i + 1..];
    xs[..i] + xs[i + 1..]
  }

  /** The dump command for a handle: `d` and the handle without its `$`. */
  function DumpCommand(handle: Variable): (c: string)
    ensures "$" <= handle.value ==> c == "d" + handle.value[1..] + "\n"
    ensures handle.value == "" ==> c == "d\n"
  {
    Command("d" + SliceFrom(handle.value, 1))
  }

  /** Converts reply or cached lines and records them in the variable index. */
  function Convert(s: Session, lines: seq<string>): (r: (Session, seq<Variable>))
  {
    var (p, vs) := Variables.ConvertAll(Variables.PoolOf(s), lines);
    (Variables.WithPool(s, p).(variableMap := Variables.Index(s.variableMap, vs)), vs)
  }

  /**
   `onVariablesRequest`: a reference with cached dump lines converts them;
   otherwise a root scope reference shows the `no variables` entry; otherwise
   the pending handle with that reference is dumped with `d`, its reply
   converted and the handle taken off the pending list.
   */
  function VariablesRequest(s: Session, ref: int, arrived: seq<string>): Outcome<seq<Variable>>
  {
    if ref in s.cache then
      var (s1, vs) := Convert(s, s.cache[ref]);
      Outcome(s1, [], vs)
    else if IsRootScopeReference(s.scopes, ref) then Outcome(s, [], [NoVariables])
    else
      var i := PendingIndex(s.pending, ref);
      if i < 0 then Outcome(s, [], [])
      else
        var sent := [DumpCommand(s.pending[i])];
        var (s1, reply) := AwaitReply(s, arrived);
        match reply
        case None => Outcome(s1, sent, [])
        case Some(e) =>
          var (s2, vs) := Convert(s1, e.data);
          Variables.ConvertAllPending(Variables.PoolOf(s1), e.data);
          Outcome(s2.(pending := RemoveAt(s2.pending, i)), sent, vs)
  }

  /**
   A reference with cached dump lines answers with one variable per line,
   in order, each the line split at its last `=`; nothing is sent, the
   handles among them join the pending list, and the index then resolves
   each name to the last variable of that name.
   */
  lemma CachedVariables(s: Session, ref: int, arrived: seq<string>)
    requires ref in s.cache
    ensures var o := VariablesRequest(s, ref, arrived);
      var lines := s.cache[ref];
      && o.sent == []
      && |o.body| == |lines|
      && (forall i :: 0 <= i < |lines| ==> (o.body[i].name, o.body[i].value) == Variables.SplitAssignment(lines[i]))
      && o.session.pending == s.pending + Variables.Handles(o.body)
      && o.session.cache == s.cache
      && forall k :: OrderedMap.Get(o.session.variableMap, k) ==
           if Variables.Latest(o.body, k).Some? then Variables.Latest(o.body, k) else OrderedMap.Get(s.variableMap, k)
  {
    var o := VariablesRequest(s, ref, arrived);
    Variables.ConvertAllRestores(Variables.PoolOf(s), s.cache[ref]);
    Variables.ConvertAllPending(Variables.PoolOf(s), s.cache[ref]);
    forall k ensures OrderedMap.Get(o.session.variableMap, k) ==
      if Variables.Latest(o.body, k).Some? then Variables.Latest(o.body, k) else OrderedMap.Get(s.variableMap, k)
    {
      Variables.IndexGet(s.variableMap, o.body, k);
    }
  }

  /**
   After a stack trace, the variables request hands out only references
   that no frame and no scope holds, and it keeps every frame id and scope
   reference at or below the counter, so the next request does too.
   */
  lemma FreshReferences(s: Session, ref: int, arrived: seq<string>)
    requires RefsBelow(s)
    ensures var o := VariablesRequest(s, ref, arrived);
      && o.session.stacks == s.stacks && o.session.scopes == s.scopes
      && RefsBelow(o.session)
      && (forall i, j :: 0 <= i < |o.body| && o.body[i].reference != 0 && 0 <= j < |s.stacks| ==>
            o.body[i].reference != s.stacks[j].id)
      && (forall i, j :: 0 <= i < |o.body| && o.body[i].reference != 0 && 0 <= j < |s.scopes| ==>
            o.body[i].reference != s.scopes[j].reference)
  {
    var o := VariablesRequest(s, ref, arrived);
    if ref in s.cache {
      CachedAbove(s, ref, arrived);
    } else if IsRootScopeReference(s.scopes, ref) || PendingIndex(s.pending, ref) < 0 {
      assert forall i :: 0 <= i < |o.body| ==> o.body[i].reference == 0;
    } else {
      ExpandedAbove(s, ref, arrived);
    }
  }

  /** The request leaves the frames and scopes alone and hands out only references above the counter it started from. */
  predicate HandsOutAbove(s: Session, o: Outcome<seq<Variable>>)
  {
    && o.session.stacks == s.stacks && o.session.scopes == s.scopes && s.nextRef <= o.session.nextRef
    && forall i :: 0 <= i < |o.body| && o.body[i].reference != 0 ==> s.nextRef < o.body[i].reference
  }

  lemma CachedAbove(s: Session, ref: int, arrived: seq<string>)
    requires ref in s.cache
    ensures HandsOutAbove(s, VariablesRequest(s, ref, arrived))
  {
    Variables.ConvertAllFresh(Variables.PoolOf(s), s.cache[ref]);
  }

  lemma ExpandedAbove(s: Session, ref: int, arrived: seq<string>)
    requires ref !in s.cache && !IsRootScopeReference(s.scopes, ref) && PendingIndex(s.pending, ref) >= 0
    ensures HandsOutAbove(s, VariablesRequest(s, ref, arrived))
  {
    var (s1, reply) := AwaitReply(s, arrived);
    if reply.Some? {
      Variables.ConvertAllFresh(Variables.PoolOf(s1), reply.value.data);
    }
  }

  /** A root scope reference without cached lines shows only the `no variables` entry and changes nothing. */
  lemma RootScopeSentinel(s: Session, ref: int, arrived: seq<string>)
    requires ref !in s.cache && IsRootScopeReference(s.scopes, ref)
    ensures VariablesRequest(s, ref, arrived) == Outcome(s, [], [NoVariables])
  {
  }

  /** A reference that is neither cached, a scope, nor pending gives an empty list, sends nothing and changes nothing. */
  lemma UnknownReference(s: Session, ref: int, arrived: seq<string>)
    requires ref !in s.cache && !IsRootScopeReference(s.scopes, ref)
    requires forall i :: 0 <= i < |s.pending| ==> s.pending[i].reference != ref
    ensures VariablesRequest(s, ref, arrived) == Outcome(s, [], [])
  {
  }

  /**
   Expanding a pending handle sends its dump command; with a reply, the
   answer is one variable per reply line, and the pending list loses
   exactly the expanded handle and gains the handles found in the reply.
   */
  lemma Expansion(s: Session, ref: int, arrived: seq<string>)
    requires ref !in s.cache && !IsRootScopeReference(s.scopes, ref)
    requires PendingIndex(s.pending, ref) >= 0
    ensures var i := PendingIndex(s.pending, ref);
      var o := VariablesRequest(s, ref, arrived);
      var (s1, reply) := AwaitReply(s, arrived);
      && o.sent == [DumpCommand(s.pending[i])]
      && (reply.None? ==> o.body == [] && o.session == s1)
      && (reply.Some? ==>
            && |o.body| == |reply.value.data|
            && (forall j :: 0 <= j < |o.body| ==> (o.body[j].name, o.body[j].value) == Variables.SplitAssignment(reply.value.data[j]))
            && o.session.pending == RemoveAt(s.pending, i) + Variables.Handles(o.body))
  {
    var i := PendingIndex(s.pending, ref);
    var (s1, reply) := AwaitReply(s, arrived);
    if reply.Some? {
      var p := Variables.PoolOf(s1);
      var data := reply.value.data;
      Variables.ConvertAllRestores(p, data);
      Variables.ConvertAllPending(p, data);
      var hs := Variables.Handles(Variables.ConvertAll(p, data).1);
      RemoveFront(s.pending, hs, i);
    }
  }

  /** Removing an element of the front part of a list leaves the back part in place. */
  lemma RemoveFront<T>(xs: seq<T>, ys: seq<T>, i: int)
    requires 0 <= i < |xs|
    ensures RemoveAt(xs + ys, i) == RemoveAt(xs, i) + ys
  {
    assert (xs + ys)[..i] == xs[..i];
    assert (xs + ys)[i + 1..] == xs[i + 1..] + ys;
  }

  /**
   With the pending list in allocation order, an expanded handle cannot be
   expanded again: its reference is no longer pending, and the list stays
   in allocation order.
   */
  lemma ExpansionIsOneShot(s: Session, ref: int, arrived: seq<string>)
    requires ref !in s.cache && !IsRootScopeReference(s.scopes, ref)
    requires PendingIndex(s.pending, ref) >= 0
    requires Variables.PendingOrdered(Variables.PoolOf(s))
    requires AwaitReply(s, arrived).1.Some?
    ensures var o := VariablesRequest(s, ref, arrived);
      && PendingIndex(o.session.pending, ref) == -1
      && Variables.PendingOrdered(Variables.PoolOf(o.session))
  {
    var i := PendingIndex(s.pending, ref);
    var (s1, reply) := AwaitReply(s, arrived);
    var p := Variables.PoolOf(s1);
    var data := reply.value.data;
    var r := Variables.ConvertAll(p, data);
    Variables.ConvertAllKeepsOrder(p, data);
    Variables.ConvertAllPending(p, data);
    Variables.ConvertAllFresh(p, data);
    var hs := Variables.Handles(r.1);
    RemoveFront(s.pending, hs, i);
    var o := VariablesRequest(s, ref, arrived);
    assert o.session.pending == RemoveAt(s.pending, i) + hs;
    RemoveKeepsOrder(r.0, i);
    assert Variables.PoolOf(o.session) == Variables.Pool(r.0.nextRef, RemoveAt(r.0.pending, i));
    forall j | 0 <= j < |o.session.pending| ensures o.session.pending[j].reference != ref {
      if j < i {
        assert o.session.pending[j] == s.pending[j];
      } else if j < |s.pending| - 1 {
        assert o.session.pending[j] == s.pending[j + 1];
      } else {
        assert o.session.pending[j] in hs;
      }
    }
  }

  /** Removing a pending handle keeps the list in allocation order. */
  lemma RemoveKeepsOrder(p: Variables.Pool, i: int)
    requires Variables.PendingOrdered(p) && 0 <= i < |p.pending|
    ensures Variables.PendingOrdered(Variables.Pool(p.nextRef, RemoveAt(p.pending, i)))
  {
    var r := RemoveAt(p.pending, i);
    forall a, b | 0 <= a < b < |r| ensures r[a].reference < r[b].reference {
      var a' := if a < i then a else a + 1;
      var b' := if b < i then b else b + 1;
      assert r[a] == p.pending[a'] && r[b] == p.pending[b'];
    }
    forall a | 0 <= a < |r| ensures 0 < r[a].reference <= p.nextRef {
      assert r[a] == p.pending[if a < i then a else a + 1];
    }
  }

  /**
   Asking twice for a cached reference gives the same names and values
   again, but every handle among them gets a new reference the second time:
   the request is repeatable for what the client shows, not for the
   references it hands out.
   */
  lemma CachedReplay(s: Session, ref: int, a: seq<string>, b: seq<string>)
    requires ref in s.cache
    ensures var o1 := VariablesRequest(s, ref, a);
      var o2 := VariablesRequest(o1.session, ref, b);
      && |o1.body| == |o2.body|
      && (forall i :: 0 <= i < |o1.body| ==> o1.body[i].name == o2.body[i].name && o1.body[i].value == o2.body[i].value)
      && (forall i, j :: 0 <= i < |o1.body| && 0 <= j < |o2.body| && o1.body[i].reference != 0 ==>
            o1.body[i].reference != o2.body[j].reference)
  {
    var o1 := VariablesRequest(s, ref, a);
    CachedVariables(s, ref, a);
    CachedVariables(o1.session, ref, b);
    var lines := s.cache[ref];
    Variables.ConvertAllFresh(Variables.PoolOf(s), lines);
    Variables.ConvertAllFresh(Variables.PoolOf(o1.session), lines);
  }

  // ---------------------------------------------------------------- evaluate

  /** The evaluate response body: the value as the result, the type tag and the variables reference. */
  datatype Evaluation = Evaluation(result: string, typeName: string, variablesReference: nat)

  /** Whether a variable answers to the (lower-cased) expression. */
  predicate Answers(v: Variable, key: string)
  {
    key in Variables.FuzzyNames(v.name)
  }

  /** `evaluateRequest`: the first indexed variable, in insertion order, one of whose lookup keys is the lower-cased expression. */
  function EvaluateRequest(s: Session, expression: string): (r: Option<Evaluation>)
    ensures r.None? <==> forall i :: 0 <= i < |s.variableMap| ==> !Answers(s.variableMap[i].1, ToLower(expression))
  {
    var key := ToLower(expression);
    var i := OrderedMap.FirstWhere(s.variableMap, (v: Variable) => Answers(v, key));
    NoMatchNone(s.variableMap, key);
    if i < 0 then None
    else
      var v := s.variableMap[i].1;
      Some(Evaluation(v.value, Variables.DefineType(v.name), v.reference))
  }

  /** The search for an answering variable comes back empty exactly when no variable answers. */
  lemma NoMatchNone(m: seq<(string, Variable)>, key: string)
    ensures OrderedMap.FirstWhere(m, (v: Variable) => Answers(v, key)) < 0 <==>
      forall i :: 0 <= i < |m| ==> !Answers(m[i].1, key)
  {
    var p := (v: Variable) => Answers(v, key);
    assert forall i :: 0 <= i < |m| ==> (p(m[i].1) <==> Answers(m[i].1, key));
  }

  /**
   When some indexed variable answers to the expression, the first one in
   insertion order gives the result: its value, its type tag and its
   variables reference.
   */
  lemma EvaluateFirstMatch(s: Session, expression: string, i: nat)
    requires i < |s.variableMap| && Answers(s.variableMap[i].1, ToLower(expression))
    requires forall j :: 0 <= j < i ==> !Answers(s.variableMap[j].1, ToLower(expression))
    ensures var v := s.variableMap[i].1;
      EvaluateRequest(s, expression) == Some(Evaluation(v.value, Variables.DefineType(v.name), v.reference))
  {
    var key := ToLower(expression);
    OrderedMap.FirstWhereIs(s.variableMap, (v: Variable) => Answers(v, key), i);
  }

  /** Evaluation ignores the case of ASCII letters in the expression. */
  lemma EvaluateIgnoresCase(s: Session, expression: string)
    ensures EvaluateRequest(s, expression) == EvaluateRequest(s, ToLower(expression))
  {
    ToLowerIdempotent(expression);
  }

  /** An indexed variable's own name, in any letter case, always evaluates to something: its first key is its lower-cased name. */
  lemma EvaluateFindsName(s: Session, i: nat)
    requires i < |s.variableMap|
    ensures EvaluateRequest(s, s.variableMap[i].1.name).Some?
  {
    var v := s.variableMap[i].1;
    assert Variables.FuzzyNames(v.name)[0] == ToLower(v.name);
    assert Answers(v, ToLower(v.name));
  }

  // ---------------------------------------------------------------- execution control

  /** `restartRequest`: the variable index is emptied. */
  function RestartRequest(s: Session): (r: Session)
    ensures r.variableMap == []
  {
    s.(variableMap := [])
  }

  /** The common part of continue and the steps: not debugging any more, the client told, the command sent. */
  function Resume(s: Session, key: string): (o: Outcome<()>)
    ensures o.sent == [Command(key)]
    ensures o.session.notices == s.notices + [Continued] && !o.session.isDebugging
  {
    Outcome(s.(isDebugging := false, notices := s.notices + [Continued]), [Command(key)], ())
  }

  /** `continueRequest`: forget the variable index and run on (`r`). */
  function ContinueRequest(s: Session): Outcome<()>
  {
    Resume(s.(variableMap := []), "r")
  }

  /** `nextRequest`: step over (`s`). */
  function NextRequest(s: Session): Outcome<()>
  {
    Resume(s, "s")
  }

  /** `stepInRequest`: step in (`e`). */
  function StepInRequest(s: Session): Outcome<()>
  {
    Resume(s, "e")
  }

  /** `stepOutRequest`: step out (`l`). */
  function StepOutRequest(s: Session): Outcome<()>
  {
    Resume(s, "l")
  }

  /** After continue or restart nothing evaluates until the variables are fetched again. */
  lemma ResumeForgets(s: Session, expression: string)
    ensures EvaluateRequest(ContinueRequest(s).session, expression).None?
    ensures EvaluateRequest(RestartRequest(s), expression).None?
    ensures ContinueRequest(s).sent == [Command("r")]
  {
  }

  /** The steps keep the variable index: evaluation after a step answers as before it. */
  lemma StepsRemember(s: Session, expression: string)
    ensures EvaluateRequest(NextRequest(s).session, expression) == EvaluateRequest(s, expression)
    ensures EvaluateRequest(StepInRequest(s).session, expression) == EvaluateRequest(s, expression)
    ensures EvaluateRequest(StepOutRequest(s).session, expression) == EvaluateRequest(s, expression)
    ensures NextRequest(s).sent == [Command("s")]
    ensures StepInRequest(s).sent == [Command("e")]
    ensures StepOutRequest(s).sent == [Command("l")]
  {
  }
}

=== FILE: stack_dump.dfy ===
/**
 The parsing part of `onStackTraceRequest` (src/bmxdebugger.ts): the
 debuggee answers `t` with one event whose data lines are, per frame, a
 header `@path<line,col>`, a scope label such as `Function Main`, then the
 frame's variable lines. Kept frames are unshifted (so the newest frame of
 the dump ends up first), each gets a scope whose variables reference is
 allocated right after the frame id, and the variable lines are appended to
 the dump cache under that reference. A frame labelled `Local <local>` is
 dropped. A synthetic application frame goes in front of the result.
 */
module StackDump {
  import opened Wrappers
  import opened JsString
  import opened Model
  import References

  /** The scope label of a frame with nothing to show; such a frame is dropped. */
  const LocalLabel: string := "Local <local>"

  /** A frame header: starts with `@` and ends with `>`. */
  predicate IsFrameHeader(line: string)
  {
    "@" <= line && EndsWith(line, '>')
  }

  /** The source path: between the `@` and the last `<`, the slice's end counted back from the line's length; empty without a `<`. */
  function HeaderPath(line: string): (path: string)
    ensures IsFrameHeader(line) && '<' in line ==> path == line[1..LastIndexOf(line, '<')]
    ensures '<' !in line ==> path == ""
  {
    var pathEnd := LastIndexOf(line, '<');
    Slice(line, 1, pathEnd - |line|)
  }

  /** The position parts: the text between the last `<` and the closing `>`, split at commas. */
  function HeaderPosition(line: string): (parts: seq<string>)
    ensures |parts| >= 1
    ensures IsFrameHeader(line) && '<' in line ==>
      Join(parts, ',') == line[LastIndexOf(line, '<') + 1..|line| - 1]
    ensures IsFrameHeader(line) && '<' !in line ==> Join(parts, ',') == line[..|line| - 1]
  {
    Split(Slice(line, LastIndexOf(line, '<') + 1, -1), ',')
  }

  /** The header the debuggee writes for a frame at `path` and `position`. */
  function Header(path: string, position: seq<string>): string
  {
    "@" + path + "<" + Join(position, ',') + ">"
  }

  /** Parsing a header gives back its path and position parts, whatever `<` the path itself holds. */
  lemma HeaderRoundTrip(path: string, position: seq<string>)
    requires |position| >= 1
    requires forall i :: 0 <= i < |position| ==> ',' !in position[i] && '<' !in position[i]
    ensures IsFrameHeader(Header(path, position))
    ensures HeaderPath(Header(path, position)) == path
    ensures HeaderPosition(Header(path, position)) == position
  {
    var line := Header(path, position);
    var pos := Join(position, ',');
    JoinAvoids(position, ',', '<');
    assert line == ("@" + path) + ['<'] + (pos + ">");
    LastIndexOfBeforeTail("@" + path, '<', pos + ">");
    assert line[1..|path| + 1] == path;
    assert line[|path| + 2..|line| - 1] == pos;
    SplitJoin(position, ',');
  }

  /** The frame name: the label after its first space (`Function Main` names `Main`), or the whole label. */
  function FrameName(scopeLine: string): (name: string)
    ensures ' ' in scopeLine ==> scopeLine == FirstWord(scopeLine) + " " + name
    ensures ' ' !in scopeLine ==> name == scopeLine
  {
    if ' ' in scopeLine then AfterFirstSpace(scopeLine) else scopeLine
  }

  /**
   The parser's state between lines: the counter, `currentStackFrame` (a
   header read, its label not yet), `lastStackFrame`, the reference of
   `lastScope`, the kept frames (newest first), the scopes (in creation
   order, one per kept frame) and the dump cache.
   */
  datatype DumpState = DumpState(
    nextRef: nat,
    current: Option<Frame>,
    lastFrame: Option<Frame>,
    lastScope: Option<nat>,
    stacks: seq<Frame>,
    scopes: seq<Scope>,
    cache: map<int, seq<string>>)

  /** The state a stack trace starts from: counter reset, no frames, the session's cache as it is. */
  function StartDump(cache: map<int, seq<string>>): DumpState
  {
    DumpState(References.Reset, None, None, None, [], [], cache)
  }

  /** The lines cached under a reference so far. */
  function Cached(cache: map<int, seq<string>>, ref: int): seq<string>
  {
    if ref in cache then cache[ref] else []
  }

  /**
   One line of the dump. A header opens a frame with a new id; the label
   after it either drops the frame (`Local`) or names it, takes a new
   reference for its scope and puts the frame on the front of the list.
   Any other line is added to the cache of the last scope.
   */
  function DumpLine(st: DumpState, line: string): (r: DumpState)
    ensures st.nextRef <= r.nextRef <= st.nextRef + 1
    ensures r.stacks == st.stacks || (|r.stacks| == |st.stacks| + 1 && r.stacks[1..] == st.stacks)
    ensures r.scopes == st.scopes || (|r.stacks| > 0 && r.scopes == st.scopes + [Scope(line, r.nextRef, r.stacks[0])])
    ensures |r.stacks| - |st.stacks| == |r.scopes| - |st.scopes|
  {
    match st.current
    case None =>
      if IsFrameHeader(line) then
        var id := References.NextReferenceId(st.nextRef);
        st.(nextRef := id, current := Some(Frame(id, "", HeaderPath(line), HeaderPosition(line), false)), lastScope := None)
      else if st.lastScope.Some? then
        var ref := st.lastScope.value;
        st.(cache := st.cache[ref := Cached(st.cache, ref) + [line]])
      else st
    case Some(f) =>
      if line == LocalLabel then st.(current := None)
      else
        var ref := References.NextReferenceId(st.nextRef);
        var frame := f.(name := FrameName(line));
        st.(nextRef := ref, current := None, lastFrame := Some(frame), lastScope := Some(ref),
            stacks := [frame] + st.stacks, scopes := st.scopes + [Scope(line, ref, frame)])
  }

  /** The dump's lines, in order. */
  function ParseDump(st: DumpState, lines: seq<string>): (r: DumpState)
    ensures st.nextRef <= r.nextRef
    ensures st.scopes <= r.scopes
    ensures |r.stacks| - |st.stacks| == |r.scopes| - |st.scopes|
    decreases |lines|
  {
    if |lines| == 0 then st else ParseDump(DumpLine(st, lines[0]), lines[1..])
  }

  /** Parsing only puts frames in front of those already kept. */
  lemma {:induction false} ParseDumpKeepsFrames(st: DumpState, lines: seq<string>)
    ensures var r := ParseDump(st, lines);
      |st.stacks| <= |r.stacks| && r.stacks[|r.stacks| - |st.stacks|..] == st.stacks
    decreases |lines|
  {
    if |lines| > 0 {
      var st1 := DumpLine(st, lines[0]);
      ParseDumpKeepsFrames(st1, lines[1..]);
      SuffixStep(ParseDump(st1, lines[1..]).stacks, st1.stacks, st.stacks);
    }
  }

  /** A suffix of a list that is the original or one element shorter is again a suffix. */
  lemma SuffixStep<T>(a: seq<T>, b: seq<T>, c: seq<T>)
    requires |b| <= |a| && a[|a| - |b|..] == b
    requires b == c || (|b| == |c| + 1 && b[1..] == c)
    ensures |c| <= |a| && a[|a| - |c|..] == c
  {
    if b != c {
      assert a[|a| - |c|..] == a[|a| - |b|..][1..];
    }
  }

  /** The cache only grows: lines are appended under a reference, never taken away. */
  lemma {:induction false} ParseDumpCache(st: DumpState, lines: seq<string>)
    ensures forall ref :: ref in st.cache ==> ref in ParseDump(st, lines).cache && st.cache[ref] <= ParseDump(st, lines).cache[ref]
    decreases |lines|
  {
    if |lines| > 0 {
      var st1 := DumpLine(st, lines[0]);
      assert forall ref :: ref in st.cache ==> ref in st1.cache && st.cache[ref] <= st1.cache[ref];
      ParseDumpCache(st1, lines[1..]);
    }
  }

  /** Parsing in two pieces is parsing the whole. */
  lemma {:induction false} ParseDumpAppend(st: DumpState, a: seq<string>, b: seq<string>)
    ensures ParseDump(st, a + b) == ParseDump(ParseDump(st, a), b)
    decreases |a|
  {
    if |a| > 0 {
      assert (a + b)[0] == a[0];
      assert (a + b)[1..] == a[1..] + b;
      ParseDumpAppend(DumpLine(st, a[0]), a[1..], b);
    } else {
      assert a + b == b;
    }
  }

  /** The frame ids decrease along the kept frames, at least two apart, all within the counter. */
  predicate FramesOrdered(stacks: seq<Frame>, nextRef: nat)
  {
    && (forall i :: 0 <= i < |stacks| ==> !stacks[i].isAppStack && 0 < stacks[i].id && stacks[i].id < nextRef)
    && (forall i, j :: 0 <= i < j < |stacks| ==> stacks[j].id + 1 < stacks[i].id)
  }

  /** The i-th scope belongs to the i-th kept frame in dump order, with the reference after the frame's id. */
  predicate ScopesMatch(scopes: seq<Scope>, stacks: seq<Frame>)
  {
    && |scopes| == |stacks|
    && forall i :: 0 <= i < |scopes| ==>
         scopes[i].parent == stacks[|stacks| - 1 - i] && scopes[i].reference == scopes[i].parent.id + 1
  }

  /** What holds of the parser's state after every line. */
  predicate Good(st: DumpState)
  {
    && FramesOrdered(st.stacks, st.nextRef)
    && ScopesMatch(st.scopes, st.stacks)
    && (st.current.Some? ==> PendingFrame(st))
    && (st.lastFrame.None? <==> |st.stacks| == 0)
    && (st.lastFrame.Some? ==> st.lastFrame.value == st.stacks[0])
    && (st.lastScope.Some? ==> |st.stacks| > 0 && st.lastScope.value == st.stacks[0].id + 1 == st.nextRef)
  }

  /** A header was read: its frame holds the newest id, with a gap below it for the scope of the frame before. */
  predicate PendingFrame(st: DumpState)
    requires st.current.Some?
  {
    && 0 < st.current.value.id == st.nextRef && st.current.value.name == "" && !st.current.value.isAppStack
    && st.lastScope.None?
    && forall i :: 0 <= i < |st.stacks| ==> st.stacks[i].id + 1 < st.nextRef
  }

  lemma StartGood(cache: map<int, seq<string>>)
    ensures Good(StartDump(cache))
  {
  }

  /** Unshifting a frame whose id is above every id in use by at least two keeps the order. */
  lemma PushKeepsOrder(stacks: seq<Frame>, n: nat, f: Frame)
    requires FramesOrdered(stacks, n) && f.id == n && 0 < n && !f.isAppStack
    requires forall i :: 0 <= i < |stacks| ==> stacks[i].id + 1 < n
    ensures FramesOrdered([f] + stacks, n + 1)
  {
    var s := [f] + stacks;
    forall i, j | 0 <= i < j < |s| ensures s[j].id + 1 < s[i].id {
      if i > 0 {
        assert s[i] == stacks[i - 1] && s[j] == stacks[j - 1];
      }
    }
  }

  lemma PushKeepsScopes(scopes: seq<Scope>, stacks: seq<Frame>, sc: Scope)
    requires ScopesMatch(scopes, stacks)
    requires sc.reference == sc.parent.id + 1
    ensures ScopesMatch(scopes + [sc], [sc.parent] + stacks)
  {
    var ss := scopes + [sc];
    var fs := [sc.parent] + stacks;
    forall i | 0 <= i < |ss| ensures ss[i].parent == fs[|fs| - 1 - i] && ss[i].reference == ss[i].parent.id + 1 {
      if i < |scopes| {
        assert ss[i] == scopes[i];
        assert fs[|fs| - 1 - i] == stacks[|stacks| - 1 - i];
      }
    }
  }

  /** A header opens a pending frame with the next id. */
  lemma HeaderGood(st: DumpState, line: string)
    requires Good(st) && st.current.None? && IsFrameHeader(line)
    ensures Good(DumpLine(st, line))
  {
    var r := DumpLine(st, line);
    assert r.stacks == st.stacks && r.scopes == st.scopes && r.nextRef == st.nextRef + 1;
    assert FramesOrdered(r.stacks, r.nextRef);
    assert PendingFrame(r);
  }

  /** A scope label keeps the pending frame, with its scope. */
  lemma LabelGood(st: DumpState, line: string)
    requires Good(st) && st.current.Some? && line != LocalLabel
    ensures Good(DumpLine(st, line))
  {
    var f := st.current.value;
    var ref := st.nextRef + 1;
    var frame := f.(name := FrameName(line));
    var r := DumpLine(st, line);
    assert r.stacks == [frame] + st.stacks && r.scopes == st.scopes + [Scope(line, ref, frame)];
    PushKeepsOrder(st.stacks, st.nextRef, frame);
    PushKeepsScopes(st.scopes, st.stacks, Scope(line, ref, frame));
  }

  /** Every line keeps the invariant. */
  lemma DumpLineGood(st: DumpState, line: string)
    requires Good(st)
    ensures Good(DumpLine(st, line))
  {
    if st.current.None? && IsFrameHeader(line) {
      HeaderGood(st, line);
    } else if st.current.Some? && line != LocalLabel {
      LabelGood(st, line);
    }
  }

  lemma {:induction false} ParseDumpGood(st: DumpState, lines: seq<string>)
    requires Good(st)
    ensures Good(ParseDump(st, lines))
    decreases |lines|
  {
    if |lines| > 0 {
      DumpLineGood(st, lines[0]);
      ParseDumpGood(DumpLine(st, lines[0]), lines[1..]);
    }
  }

  /** No line of `body` is a frame header. */
  predicate NoHeaders(body: seq<string>)
  {
    forall i :: 0 <= i < |body| ==> !IsFrameHeader(body[i])
  }

  /** After a kept frame's label, the lines up to the next header are appended to its scope's cache entry, nothing else changing. */
  lemma {:induction false} CacheRun(st: DumpState, body: seq<string>)
    requires st.current.None? && st.lastScope.Some? && NoHeaders(body)
    ensures ParseDump(st, body) ==
      if |body| == 0 then st
      else st.(cache := st.cache[st.lastScope.value := Cached(st.cache, st.lastScope.value) + body])
    decreases |body|
  {
    if |body| > 0 {
      var ref := st.lastScope.value;
      var st1 := st.(cache := st.cache[ref := Cached(st.cache, ref) + [body[0]]]);
      assert DumpLine(st, body[0]) == st1;
      assert ParseDump(st, body) == ParseDump(st1, body[1..]);
      CacheRun(st1, body[1..]);
      if |body| == 1 {
        assert body == [body[0]];
      } else {
        CacheTwice(st.cache, ref, body);
      }
    }
  }

  /** Caching a line and then the lines after it is caching them all at once. */
  lemma CacheTwice(cache: map<int, seq<string>>, ref: int, body: seq<string>)
    requires |body| > 0
    ensures var c1 := cache[ref := Cached(cache, ref) + [body[0]]];
      c1[ref := Cached(c1, ref) + body[1..]] == cache[ref := Cached(cache, ref) + body]
  {
    var c1 := cache[ref := Cached(cache, ref) + [body[0]]];
    assert Cached(c1, ref) == Cached(cache, ref) + [body[0]];
    assert Cached(c1, ref) + body[1..] == Cached(cache, ref) + body by {
      assert body == [body[0]] + body[1..];
    }
  }

  /** With no scope open, lines up to the next header are not cached anywhere. */
  lemma {:induction false} IdleRun(st: DumpState, body: seq<string>)
    requires st.current.None? && st.lastScope.None? && NoHeaders(body)
    ensures ParseDump(st, body) == st
    decreases |body|
  {
    if |body| > 0 {
      IdleRun(st, body[1..]);
    }
  }

  /** Two lines, one after the other. */
  lemma ParseTwo(st: DumpState, a: string, b: string)
    ensures ParseDump(st, [a, b]) == DumpLine(DumpLine(st, a), b)
  {
    var st1 := DumpLine(st, a);
    assert [a, b][1..] == [b];
    assert ParseDump(st, [a, b]) == ParseDump(st1, [b]);
    assert [b][1..] == [];
    assert ParseDump(st1, [b]) == ParseDump(DumpLine(st1, b), []);
  }

  /** A header followed by the `Local <local>` label keeps no frame, and the lines after it are not cached. */
  lemma LocalFrameDropped(st: DumpState, header: string, body: seq<string>)
    requires st.current.None? && IsFrameHeader(header) && NoHeaders(body)
    ensures ParseDump(st, [header, LocalLabel] + body) == st.(nextRef := st.nextRef + 1, lastScope := None)
  {
    var st2 := st.(nextRef := st.nextRef + 1, lastScope := None);
    ParseTwo(st, header, LocalLabel);
    ParseDumpAppend(st, [header, LocalLabel], body);
    IdleRun(st2, body);
  }

  /**
   A header, a label other than `Local <local>` and the lines up to the next
   header keep one frame: it goes in front, its id is the next one, its
   scope (reference one higher) goes at the end of the scopes, and the
   lines are appended to that reference's cache entry.
   */
  lemma FrameBlock(st: DumpState, header: string, scopeLine: string, body: seq<string>)
    requires st.current.None? && IsFrameHeader(header) && scopeLine != LocalLabel && NoHeaders(body)
    ensures var id := st.nextRef + 1;
      var f := Frame(id, FrameName(scopeLine), HeaderPath(header), HeaderPosition(header), false);
      var r := ParseDump(st, [header, scopeLine] + body);
      && r.nextRef == id + 1
      && r.current.None? && r.lastFrame == Some(f) && r.lastScope == Some(id + 1)
      && r.stacks == [f] + st.stacks
      && r.scopes == st.scopes + [Scope(scopeLine, id + 1, f)]
      && r.cache == if |body| == 0 then st.cache else st.cache[id + 1 := Cached(st.cache, id + 1) + body]
  {
    var id := st.nextRef + 1;
    var pending := Frame(id, "", HeaderPath(header), HeaderPosition(header), false);
    var st1 := st.(nextRef := id, current := Some(pending), lastScope := None);
    HeaderStep(st, header);
    LabelStep(st1, pending, scopeLine);
    var f := pending.(name := FrameName(scopeLine));
    var st2 := st1.(nextRef := id + 1, current := None, lastFrame := Some(f), lastScope := Some(id + 1),
                    stacks := [f] + st1.stacks, scopes := st1.scopes + [Scope(scopeLine, id + 1, f)]);
    ParseTwo(st, header, scopeLine);
    ParseDumpAppend(st, [header, scopeLine], body);
    CacheRun(st2, body);
  }

  /** A header read with no frame pending opens a frame with the next id and closes the last scope. */
  lemma HeaderStep(st: DumpState, header: string)
    requires st.current.None? && IsFrameHeader(header)
    ensures DumpLine(st, header) == st.(nextRef := st.nextRef + 1,
      current := Some(Frame(st.nextRef + 1, "", HeaderPath(header), HeaderPosition(header), false)), lastScope := None)
  {
  }

  /** A label other than `Local <local>` names the pending frame and keeps it, with a scope whose reference is the next id. */
  lemma LabelStep(st: DumpState, f: Frame, scopeLine: string)
    requires st.current == Some(f) && scopeLine != LocalLabel
    ensures var g := f.(name := FrameName(scopeLine));
      DumpLine(st, scopeLine) == st.(nextRef := st.nextRef + 1, current := None, lastFrame := Some(g),
        lastScope := Some(st.nextRef + 1), stacks := [g] + st.stacks, scopes := st.scopes + [Scope(scopeLine, st.nextRef + 1, g)])
  {
  }

  /**
   The parsed stack trace: the frames in the order the response lists
   them, `totalFrames` as the response reports it, and what the parse
   leaves in the session.
   */
  datatype Trace = Trace(nextRef: nat, frames: seq<Frame>, totalFrames: nat, scopes: seq<Scope>, cache: map<int, seq<string>>)

  /**
   The application frame, when any frame was kept: named after the oldest
   kept frame in angle brackets, placed where the newest one is, with a new
   id. `totalFrames` was the number of kept frames; adding the application
   frame increments a non-zero count after reading it, so the count stays.
   */
  function Finish(st: DumpState): (t: Trace)
    requires Good(st)
    ensures st.lastFrame.None? ==> t.frames == [] && t.totalFrames == 0
    ensures st.lastFrame.Some? ==>
      && |t.frames| == |st.stacks| + 1
      && t.frames[1..] == st.stacks
      && t.frames[0].isAppStack
      && t.frames[0].name == "<" + st.stacks[|st.stacks| - 1].name + ">"
      && t.frames[0].sourcePath == t.frames[1].sourcePath
      && t.frames[0].position == t.frames[1].position
      && t.totalFrames == |t.frames| - 1
    ensures t.scopes == st.scopes && t.cache == st.cache
    ensures st.nextRef <= t.nextRef
    ensures forall i :: 0 <= i < |t.frames| ==> t.frames[i].id <= t.nextRef
  {
    match st.lastFrame
    case None => Trace(st.nextRef, st.stacks, |st.stacks|, st.scopes, st.cache)
    case Some(last) =>
      var total := |st.stacks|;
      var id := References.NextReferenceId(st.nextRef);
      var app := Frame(id, "<" + st.stacks[|st.stacks| - 1].name + ">", last.sourcePath, last.position, true);
      var frames := [app] + st.stacks;
      assert frames[1..] == st.stacks;
      Trace(id, frames, if total != 0 then total else 1, st.scopes, st.cache)
  }

  /** `onStackTraceRequest`'s parse of the reply's data lines, from a reset counter and no frames. */
  function StackTrace(cache: map<int, seq<string>>, data: seq<string>): (t: Trace)
    ensures t.totalFrames == if |t.frames| == 0 then 0 else |t.frames| - 1
    ensures forall ref :: ref in cache ==> ref in t.cache && cache[ref] <= t.cache[ref]
  {
    StartGood(cache);
    ParseDumpGood(StartDump(cache), data);
    ParseDumpCache(StartDump(cache), data);
    Finish(ParseDump(StartDump(cache), data))
  }

  /**
   How a trace is numbered: frame ids decrease along the frames (newest
   first), only the first frame is the application frame, no scope
   reference is a frame id, scope references grow with the scopes, and the
   j-th scope belongs to the j-th kept frame counted from the oldest, with
   the reference one above that frame's id. No id or reference is above
   the counter.
   */
  predicate WellNumbered(t: Trace)
  {
    && (forall i :: 0 <= i < |t.frames| ==> t.frames[i].id <= t.nextRef)
    && (forall j :: 0 <= j < |t.scopes| ==> t.scopes[j].reference <= t.nextRef)
    && (forall i, j :: 0 <= i < j < |t.frames| ==> t.frames[j].id < t.frames[i].id)
    && (forall i :: 0 <= i < |t.frames| ==> 0 < t.frames[i].id && (t.frames[i].isAppStack <==> i == 0))
    && (forall i, j :: 0 <= i < |t.frames| && 0 <= j < |t.scopes| ==> t.frames[i].id != t.scopes[j].reference)
    && (forall i, j :: 0 <= i < j < |t.scopes| ==> t.scopes[i].reference < t.scopes[j].reference)
    && |t.scopes| == (if |t.frames| == 0 then 0 else |t.frames| - 1)
    && (forall j :: 0 <= j < |t.scopes| ==>
          t.scopes[j].parent == t.frames[|t.frames| - 1 - j] && t.scopes[j].reference == t.scopes[j].parent.id + 1)
  }

  /** Every stack trace is well numbered. */
  lemma StackTraceIds(cache: map<int, seq<string>>, data: seq<string>)
    ensures WellNumbered(StackTrace(cache, data))
  {
    StartGood(cache);
    ParseDumpGood(StartDump(cache), data);
    FinishIds(ParseDump(StartDump(cache), data));
  }

  lemma FinishIds(st: DumpState)
    requires Good(st)
    ensures WellNumbered(Finish(st))
  {
    SpreadIds(st);
    if st.lastFrame.Some? {
      FinishFramesDecrease(st);
      FinishScopesApart(st);
    }
  }

  lemma FinishFramesDecrease(st: DumpState)
    requires Good(st) && st.lastFrame.Some?
    ensures var t := Finish(st);
      && (forall i, j :: 0 <= i < j < |t.frames| ==> t.frames[j].id < t.frames[i].id)
      && (forall i :: 0 <= i < |t.frames| ==> 0 < t.frames[i].id && (t.frames[i].isAppStack <==> i == 0))
  {
    var t := Finish(st);
    forall i, j | 0 <= i < j < |t.frames| ensures t.frames[j].id < t.frames[i].id {
      assert t.frames[j] == st.stacks[j - 1];
      if i > 0 {
        assert t.frames[i] == st.stacks[i - 1];
      }
    }
    forall i | 0 < i < |t.frames| ensures 0 < t.frames[i].id && !t.frames[i].isAppStack {
      assert t.frames[i] == st.stacks[i - 1];
    }
  }

  lemma FinishScopesApart(st: DumpState)
    requires Good(st) && st.lastFrame.Some?
    requires forall i, j :: 0 <= i < |st.stacks| && 0 <= j < |st.scopes| ==> st.stacks[i].id != st.scopes[j].reference
    requires forall j :: 0 <= j < |st.scopes| ==> st.scopes[j].reference <= st.nextRef
    ensures var t := Finish(st);
      && (forall i, j :: 0 <= i < |t.frames| && 0 <= j < |t.scopes| ==> t.frames[i].id != t.scopes[j].reference)
      && (forall j :: 0 <= j < |t.scopes| ==> t.scopes[j].parent == t.frames[|t.frames| - 1 - j])
  {
    var t := Finish(st);
    forall i, j | 0 <= i < |t.frames| && 0 <= j < |t.scopes| ensures t.frames[i].id != t.scopes[j].reference {
      if i > 0 {
        assert t.frames[i] == st.stacks[i - 1];
      }
    }
    forall j | 0 <= j < |t.scopes| ensures t.scopes[j].parent == t.frames[|t.frames| - 1 - j] {
      assert t.frames[|t.frames| - 1 - j] == st.stacks[|st.stacks| - 1 - j];
    }
  }

  /** Frame ids and scope references of a parsed dump are all different, and scope references grow with the scopes. */
  lemma SpreadIds(st: DumpState)
    requires Good(st)
    ensures forall i, j :: 0 <= i < |st.stacks| && 0 <= j < |st.scopes| ==> st.stacks[i].id != st.scopes[j].reference
    ensures forall i, j :: 0 <= i < j < |st.scopes| ==> st.scopes[i].reference < st.scopes[j].reference
    ensures forall j :: 0 <= j < |st.scopes| ==> st.scopes[j].reference <= st.nextRef
  {
    var n := |st.stacks|;
    forall i, j | 0 <= i < |st.stacks| && 0 <= j < |st.scopes| ensures st.stacks[i].id != st.scopes[j].reference {
      var k := n - 1 - j;
      assert st.scopes[j].parent == st.stacks[k];
      if i < k {
        assert st.stacks[k].id + 1 < st.stacks[i].id;
      } else if k < i {
        assert st.stacks[i].id + 1 < st.stacks[k].id;
      }
    }
    forall i, j | 0 <= i < j < |st.scopes| ensures st.scopes[i].reference < st.scopes[j].reference {
      assert st.scopes[i].parent == st.stacks[n - 1 - i];
      assert st.scopes[j].parent == st.stacks[n - 1 - j];
    }
  }

  /**
   A dump of one frame: the application frame comes first, named after the
   frame and placed where it is, then the frame itself with id 1; its scope
   has reference 2 and the frame's variable lines are cached under it.
   */
  lemma OneFrameTrace(cache: map<int, seq<string>>, header: string, scopeLine: string, body: seq<string>)
    requires IsFrameHeader(header) && scopeLine != LocalLabel && NoHeaders(body)
    ensures var t := StackTrace(cache, [header, scopeLine] + body);
      var f := Frame(1, FrameName(scopeLine), HeaderPath(header), HeaderPosition(header), false);
      && t.frames == [Frame(3, "<" + f.name + ">", f.sourcePath, f.position, true), f]
      && t.totalFrames == 1
      && t.scopes == [Scope(scopeLine, 2, f)]
      && t.cache == if |body| == 0 then cache else cache[2 := Cached(cache, 2) + body]
  {
    var f := Frame(1, FrameName(scopeLine), HeaderPath(header), HeaderPosition(header), false);
    var st := OneFrameParse(cache, header, scopeLine, body);
    FinishOne(st, f);
  }

  /** The parse of a one-frame dump, before the application frame is added. */
  lemma OneFrameParse(cache: map<int, seq<string>>, header: string, scopeLine: string, body: seq<string>) returns (st: DumpState)
    requires IsFrameHeader(header) && scopeLine != LocalLabel && NoHeaders(body)
    ensures var f := Frame(1, FrameName(scopeLine), HeaderPath(header), HeaderPosition(header), false);
      && st == ParseDump(StartDump(cache), [header, scopeLine] + body)
      && Good(st) && st.stacks == [f] && st.lastFrame == Some(f) && st.nextRef == 2
      && st.scopes == [Scope(scopeLine, 2, f)]
      && st.cache == if |body| == 0 then cache else cache[2 := Cached(cache, 2) + body]
  {
    var start := StartDump(cache);
    st := ParseDump(start, [header, scopeLine] + body);
    FrameBlock(start, header, scopeLine, body);
    StartGood(cache);
    ParseDumpGood(start, [header, scopeLine] + body);
  }

  /** Finishing a parse that kept one frame, with the counter at 2. */
  lemma FinishOne(st: DumpState, f: Frame)
    requires Good(st) && st.stacks == [f] && st.lastFrame == Some(f) && st.nextRef == 2
    ensures var t := Finish(st);
      && t.frames == [Frame(3, "<" + f.name + ">", f.sourcePath, f.position, true), f]
      && t.totalFrames == 1 && t.scopes == st.scopes && t.cache == st.cache
  {
    var t := Finish(st);
    assert t.frames == [Frame(3, "<" + f.name + ">", f.sourcePath, f.position, true)] + st.stacks;
  }

  /** A dump whose only frame is labelled `Local <local>` lists no frames and caches nothing. */
  lemma LocalOnlyTrace(cache: map<int, seq<string>>, header: string, body: seq<string>)
    requires IsFrameHeader(header) && NoHeaders(body)
    ensures var t := StackTrace(cache, [header, LocalLabel] + body);
      t.frames == [] && t.totalFrames == 0 && t.scopes == [] && t.cache == cache
  {
    LocalFrameDropped(StartDump(cache), header, body);
    StartGood(cache);
    ParseDumpGood(StartDump(cache), [header, LocalLabel] + body);
  }
}

=== FILE: variables.dfy ===
/**
 `convertToVariable` (src/bmxdebugger.ts): a raw dump line `<declaration>=<value>`
 becomes a variable with a type tag, three lower-cased lookup keys and,
 when the value is an object handle, a fresh reference and a place on the
 list of handles awaiting expansion. Converted variables are recorded in
 the ordered variable index by name (`variableMap.set`).
 */
module Variables {
  import opened Wrappers
  import opened JsString
  import opened Model
  import OrderedMap
  import References

  /** The split at the last `=`: declaration before it, value after it; a line without `=` is all declaration. */
  function SplitAssignment(str: string): (r: (string, string))
    ensures '=' in str ==> r.0 + "=" + r.1 == str && '=' !in r.1
    ensures '=' !in str ==> r == (str, "")
  {
    if '=' in str then
      var k := LastIndexOf(str, '=');
      var value := SliceFrom(str, k + 1);
      var name := Slice(str, 0, |str| - |value| - 1);
      assert name == str[..k];
      assert str == str[..k] + "=" + str[k + 1..];
      (name, value)
    else (str, "")
  }

  /** `v` is what the conversion of `line` must give back: the line re-joined at its last `=`, or the whole line. */
  predicate Restores(v: Variable, line: string)
  {
    if '=' in line then v.name + "=" + v.value == line && '=' !in v.value
    else v.name == line && v.value == ""
  }

  /** The type tag: the declaration's first word, empty when it has no space. */
  function DefineType(name: string): (t: string)
    ensures ' ' in name ==> name == t + " " + AfterFirstSpace(name) && ' ' !in t
    ensures ' ' !in name ==> t == ""
  {
    FirstWord(name)
  }

  /**
   The text between the first space and the last colon, with the bounds
   clamped and swapped as `substring` does.
   */
  function MiddleName(name: string): (m: string)
    ensures IndexOf(name, ' ') < LastIndexOf(name, ':') ==>
      m == name[IndexOf(name, ' ') + 1..LastIndexOf(name, ':')]
    ensures ':' !in name ==> m == name[..IndexOf(name, ' ') + 1]
    ensures ':' in name && LastIndexOf(name, ':') <= IndexOf(name, ' ') ==>
      m == name[LastIndexOf(name, ':')..IndexOf(name, ' ') + 1]
  {
    Substring(name, IndexOf(name, ' ') + 1, LastIndexOf(name, ':'))
  }

  /**
   The three lookup keys, lower-cased: the whole declaration, the text
   between the first space and the last colon (bounds clamped and swapped as
   `substring` does), and the text after the first space.
   */
  function FuzzyNames(name: string): (keys: seq<string>)
    ensures |keys| == 3
    ensures keys[0] == ToLower(name)
    ensures keys[2] == ToLower(AfterFirstSpace(name))
    ensures IndexOf(name, ' ') < LastIndexOf(name, ':') ==>
      keys[1] == ToLower(name[IndexOf(name, ' ') + 1..LastIndexOf(name, ':')])
    ensures ':' !in name ==> keys[1] == ToLower(name[..IndexOf(name, ' ') + 1])
    ensures ':' in name && LastIndexOf(name, ':') <= IndexOf(name, ' ') ==>
      keys[1] == ToLower(name[LastIndexOf(name, ':')..IndexOf(name, ' ') + 1])
  {
    MiddleKey(name);
    [ToLower(name), ToLower(MiddleName(name)), ToLower(AfterFirstSpace(name))]
  }

  lemma MiddleKey(name: string)
    ensures IndexOf(name, ' ') < LastIndexOf(name, ':') ==>
      ToLower(MiddleName(name)) == ToLower(name[IndexOf(name, ' ') + 1..LastIndexOf(name, ':')])
    ensures ':' !in name ==> ToLower(MiddleName(name)) == ToLower(name[..IndexOf(name, ' ') + 1])
    ensures ':' in name && LastIndexOf(name, ':') <= IndexOf(name, ' ') ==>
      ToLower(MiddleName(name)) == ToLower(name[LastIndexOf(name, ':')..IndexOf(name, ' ') + 1])
  {
  }

  /** A value that names an object to dump later: a `$` handle that is not an inline `{...}` literal. */
  predicate IsHandle(value: string)
  {
    "$" <= value && !EndsWith(value, '}')
  }

  /** The part of the session that converting variables touches: the reference counter and the pending handles. */
  datatype Pool = Pool(nextRef: nat, pending: seq<Variable>)

  function PoolOf(s: Session): Pool
  {
    Pool(s.nextRef, s.pending)
  }

  function WithPool(s: Session, p: Pool): Session
  {
    s.(nextRef := p.nextRef, pending := p.pending)
  }

  /** `convertToVariable(str)`: only a handle value allocates a reference and joins the pending list. */
  function ConvertToVariable(p: Pool, str: string): (r: (Pool, Variable))
    ensures r.1.reference != 0 <==> IsHandle(r.1.value)
    ensures IsHandle(r.1.value) ==>
      p.nextRef < r.1.reference && r.0 == Pool(r.1.reference, p.pending + [r.1])
    ensures !IsHandle(r.1.value) ==> r.0 == p
  {
    var (name, value) := SplitAssignment(str);
    if IsHandle(value) then
      var id := References.NextReferenceId(p.nextRef);
      var v := Variable(name, value, id);
      (Pool(id, p.pending + [v]), v)
    else (p, Variable(name, value, 0))
  }

  /** A converted variable gives its line back, split at the last `=`, whatever the pool. */
  lemma ConvertShape(p: Pool, str: string)
    ensures var v := ConvertToVariable(p, str).1;
      Restores(v, str) && (v.name, v.value) == SplitAssignment(str)
  {
  }

  /** The variables that hold a reference, in order. */
  function Handles(vs: seq<Variable>): (hs: seq<Variable>)
    ensures forall i :: 0 <= i < |hs| ==> hs[i].reference != 0
    ensures forall v :: v in hs <==> v in vs && v.reference != 0
    ensures |hs| <= |vs|
  {
    if |vs| == 0 then []
    else (if vs[0].reference != 0 then [vs[0]] else []) + Handles(vs[1..])
  }

  /** References strictly increase along the list, so no reference occurs twice. */
  predicate Increasing(vs: seq<Variable>)
  {
    forall i, j :: 0 <= i < j < |vs| ==> vs[i].reference < vs[j].reference
  }

  /** The pending list holds references no larger than the counter, in allocation order. */
  predicate PendingOrdered(p: Pool)
  {
    && Increasing(p.pending)
    && forall i :: 0 <= i < |p.pending| ==> 0 < p.pending[i].reference <= p.nextRef
  }

  /** Converts the lines in order, threading the counter and the pending list through. */
  function ConvertAll(p: Pool, lines: seq<string>): (r: (Pool, seq<Variable>))
    ensures |r.1| == |lines|
    decreases |lines|
  {
    if |lines| == 0 then (p, [])
    else
      var (p1, v) := ConvertToVariable(p, lines[0]);
      var (p2, vs) := ConvertAll(p1, lines[1..]);
      (p2, [v] + vs)
  }

  /** Converting the first line, then the rest. */
  lemma ConvertStep(p: Pool, lines: seq<string>) returns (p1: Pool, v: Variable)
    requires |lines| > 0
    ensures (p1, v) == ConvertToVariable(p, lines[0])
    ensures p1.pending == p.pending + Handles([v])
    ensures v.reference != 0 ==> v.reference == p1.nextRef
    ensures ConvertAll(p, lines) == (ConvertAll(p1, lines[1..]).0, [v] + ConvertAll(p1, lines[1..]).1)
  {
    p1, v := ConvertToVariable(p, lines[0]).0, ConvertToVariable(p, lines[0]).1;
  }

  /**
   Each converted variable gives back its line: the n-th variable is the
   n-th line split at its last `=`, whatever the pool.
   */
  lemma {:induction false} ConvertAllRestores(p: Pool, lines: seq<string>)
    ensures forall i :: 0 <= i < |lines| ==>
      && Restores(ConvertAll(p, lines).1[i], lines[i])
      && (ConvertAll(p, lines).1[i].name, ConvertAll(p, lines).1[i].value) == SplitAssignment(lines[i])
    decreases |lines|
  {
    if |lines| > 0 {
      var p1, v := ConvertStep(p, lines);
      ConvertShape(p, lines[0]);
      ConvertAllRestores(p1, lines[1..]);
    }
  }

  /** Every reference handed out lies above the counter before and at most the counter after. */
  lemma {:induction false} ConvertAllFresh(p: Pool, lines: seq<string>)
    ensures var r := ConvertAll(p, lines);
      && p.nextRef <= r.0.nextRef
      && forall i :: 0 <= i < |r.1| && r.1[i].reference != 0 ==> p.nextRef < r.1[i].reference <= r.0.nextRef
    decreases |lines|
  {
    if |lines| > 0 {
      var p1, v := ConvertStep(p, lines);
      ConvertAllFresh(p1, lines[1..]);
      var r := ConvertAll(p, lines);
      var r2 := ConvertAll(p1, lines[1..]);
      assert p.nextRef <= p1.nextRef && r.0 == r2.0 && r.1 == [v] + r2.1;
      forall i | 0 <= i < |r.1| && r.1[i].reference != 0
        ensures p.nextRef < r.1[i].reference <= r.0.nextRef
      {
        if i > 0 {
          assert r.1[i] == r2.1[i - 1];
        }
      }
    }
  }

  /** The handles met while converting are appended to the pending list, in order. */
  lemma {:induction false} ConvertAllPending(p: Pool, lines: seq<string>)
    ensures ConvertAll(p, lines).0.pending == p.pending + Handles(ConvertAll(p, lines).1)
    decreases |lines|
  {
    if |lines| > 0 {
      var p1, v := ConvertStep(p, lines);
      ConvertAllPending(p1, lines[1..]);
      var r2 := ConvertAll(p1, lines[1..]);
      HandlesCons(v, r2.1);
      Regroup(p.pending, Handles([v]), Handles(r2.1));
    } else {
      assert p.pending + [] == p.pending;
    }
  }

  lemma HandlesCons(v: Variable, vs: seq<Variable>)
    ensures Handles([v] + vs) == Handles([v]) + Handles(vs)
  {
    assert ([v] + vs)[0] == v;
    assert ([v] + vs)[1..] == vs;
  }

  /**
   * Filtering keeps the order and the repeats of the list: the handles of
   * a concatenation are the handles of each part, one after the other.
   * With HandlesOne this fixes the handles of every list.
   */
  lemma {:induction false} HandlesAppend(a: seq<Variable>, b: seq<Variable>)
    ensures Handles(a + b) == Handles(a) + Handles(b)
    decreases |a|
  {
    if |a| == 0 {
      assert a + b == b;
    } else {
      HandlesHead(a, b);
      HandlesAppend(a[1..], b);
      Regroup(Handles([a[0]]), Handles(a[1..]), Handles(b));
    }
  }

  lemma HandlesHead(a: seq<Variable>, b: seq<Variable>)
    requires |a| > 0
    ensures Handles(a + b) == Handles([a[0]]) + Handles(a[1..] + b)
    ensures Handles(a) == Handles([a[0]]) + Handles(a[1..])
  {
    assert a + b == [a[0]] + (a[1..] + b);
    assert a == [a[0]] + a[1..];
    HandlesCons(a[0], a[1..] + b);
    HandlesCons(a[0], a[1..]);
  }

  /** A single variable is kept exactly when it holds a reference. */
  lemma HandlesOne(v: Variable)
    ensures Handles([v]) == if v.reference != 0 then [v] else []
  {
    assert [v][1..] == [];
  }

  /** The handles met while converting have strictly increasing references. */
  lemma {:induction false} ConvertAllIncreasing(p: Pool, lines: seq<string>)
    ensures Increasing(Handles(ConvertAll(p, lines).1))
    decreases |lines|
  {
    if |lines| > 0 {
      var p1, v := ConvertStep(p, lines);
      ConvertAllIncreasing(p1, lines[1..]);
      ConvertAllFresh(p1, lines[1..]);
      var vs := ConvertAll(p1, lines[1..]).1;
      HandlesCons(v, vs);
      IncreasingJoin(Handles([v]), Handles(vs), p1.nextRef);
    }
  }

  /** Two increasing lists, the first at most `bound` and the second above it, join into an increasing list. */
  lemma IncreasingJoin(a: seq<Variable>, b: seq<Variable>, bound: int)
    requires Increasing(a) && Increasing(b)
    requires forall i :: 0 <= i < |a| ==> a[i].reference <= bound
    requires forall i :: 0 <= i < |b| ==> bound < b[i].reference
    ensures Increasing(a + b)
  {
  }

  /**
   Converting keeps the pending list in allocation order: the new handles
   go after the old ones, with larger references, and the counter covers
   them all.
   */
  lemma ConvertAllKeepsOrder(p: Pool, lines: seq<string>)
    requires PendingOrdered(p)
    ensures PendingOrdered(ConvertAll(p, lines).0)
  {
    var r := ConvertAll(p, lines);
    ConvertAllPending(p, lines);
    ConvertAllIncreasing(p, lines);
    ConvertAllFresh(p, lines);
    IncreasingJoin(p.pending, Handles(r.1), p.nextRef);
  }

  /** `variableMap.set(v.name, v)` for each variable in turn. */
  function Index(m: seq<(string, Variable)>, vs: seq<Variable>): (r: seq<(string, Variable)>)
    ensures OrderedMap.Keys(m) <= OrderedMap.Keys(r)
    ensures |r| <= |m| + |vs|
    decreases |vs|
  {
    if |vs| == 0 then m else Index(OrderedMap.Set(m, vs[0].name, vs[0]), vs[1..])
  }

  /** The last variable in the list with the given name, if any. */
  function Latest(vs: seq<Variable>, k: string): (r: Option<Variable>)
    ensures r.Some? ==> r.value in vs && r.value.name == k
    ensures r.None? <==> forall i :: 0 <= i < |vs| ==> vs[i].name != k
    ensures r.Some? ==> exists i :: 0 <= i < |vs| && vs[i] == r.value && forall j :: i < j < |vs| ==> vs[j].name != k
    decreases |vs|
  {
    if |vs| == 0 then None
    else
      var later := Latest(vs[1..], k);
      if later.Some? then later
      else if vs[0].name == k then Some(vs[0])
      else None
  }

  /** After indexing, a name resolves to the last variable recorded under it; other names keep their old entry. */
  lemma {:induction false} IndexGet(m: seq<(string, Variable)>, vs: seq<Variable>, k: string)
    ensures OrderedMap.Get(Index(m, vs), k) == if Latest(vs, k).Some? then Latest(vs, k) else OrderedMap.Get(m, k)
    decreases |vs|
  {
    if |vs| > 0 {
      IndexGet(OrderedMap.Set(m, vs[0].name, vs[0]), vs[1..], k);
    }
  }

  /** Indexing never stores a name twice. */
  lemma {:induction false} IndexKeys(m: seq<(string, Variable)>, vs: seq<Variable>)
    requires OrderedMap.DistinctKeys(m)
    ensures OrderedMap.DistinctKeys(Index(m, vs))
    decreases |vs|
  {
    if |vs| > 0 {
      var m1 := OrderedMap.Set(m, vs[0].name, vs[0]);
      IndexKeys(m1, vs[1..]);
    }
  }
}

=== FILE: wrappers.dfy ===
/** Optional values: JavaScript's `undefined` next to a present value. */
module Wrappers {

  datatype Option<+T> = None | Some(value: T)
}
